=== FILE: README.md ===
# World-edit engine of the iso-builder block builder, in Dafny

This project models the part of the block builder that decides what the world contains. Rendering is not included. The model has five pieces:

- **Store.** The zustand store `src/store/gameState.ts` is one immutable `GameState` record, and each action is a pure function on it. The actions are `addBlock`, `removeBlock`, `clearBlocks`, `undo` and `redo`, the debounced history commit, the saved-build operations (save, load, delete, export, import), the selection and hover setters, and `toggleTheme`.
- **Debounce timer.** The commit timer is an explicit `commitPending` flag. The timer firing is its own step, `FireHistoryTimer`.
- **Ground-click placement** (`src/components/game/SoftCirclePlane.tsx`). This covers snapping to the cell centre, the column query, the "first gap scanning upward from level 0" stacking rule, and the position logic of `handleClick`, including its face branch.
- **Block plugin policies** (`BaseBlockPlugin.ts`, `StairBlockPlugin.ts`, `cube.ts`). These are the epsilon occupancy test, the normal-offset placement, the stair's upward bias, and the face-index tables. The registry `registry.ts` is an insertion-ordered map that rejects duplicate type tags.
- **Drag detector** (`src/hooks/useDragDetection.ts`). It is a three-handler state machine, and it suppresses a click that ends a drag.

Coordinates are integers in quarter units, so the world value v is stored as 4·v. Every value the engine produces is then exact:

- the cell centre `floor(x) + 0.5` is `(x / 4) * 4 + 2`;
- the stair lift of 0.25 is 1;
- the source's `Math.abs(a - b) < 0.1` is kept literally as `10·|a − b| < 4`, and its contract proves that this is equality.

The encoder `btoa(JSON.stringify(..))` and the decoder `JSON.parse(atob(..))` are function-valued parameters. Both are partial: each returns `None` wherever the source would throw. `btoa` throws on a character above U+00FF, and `exportBuild` does not catch it. Fresh ids from `generateId` are also parameters. Lemmas that need an id to be unused say so in their hypotheses.

The files are `basics.dfy` (Option, Result, Id), `seqs.dfy` (filter and find), `geometry.dfy`, `blocks.dfy`, `block_plugins.dfy`, `registry.dfy`, `game_store.dfy`, `store_properties.dfy`, `ground_placement.dfy`, `drag_detection.dfy`, `hover_throttle.dfy` and `interaction.dfy`.

### Behaviour worth knowing

- **`clearBlocks`** (`src/store/gameState.ts:262-273`) empties the blocks, drops the redo entries, appends an empty snapshot and advances the cursor. A debounced commit that is still pending stays pending, so the timer later pushes a second empty snapshot (`StoreProperties.ClearWhilePending`).
- **`loadBuild`** (`src/store/gameState.ts:218-229`) restarts the history from the loaded blocks. A pending commit likewise stays pending (`StoreProperties.LoadWhilePending`).
- **Stair bias.** An upward face normal lifts a stair by 0.25 (`src/plugins/blocks/StairBlockPlugin.ts:33-34`).
- **`handleClick`** (`src/components/game/SoftCirclePlane.tsx:93-130`) never calls the occupancy check. The ground plane's clicks hit its surface at height -0.5 (`SoftCirclePlane.tsx:135-136`). Block meshes stop their clicks from propagating (`src/components/game/Block.tsx:12`). In a world where no two blocks share a cell and every block stands on a whole non-negative level, such a click takes the column rule whatever face it reports, lands in a free cell, and keeps the world tidy (`GroundPlacement.GroundClickKeepsWorldTidy`). The face branch matches only a block centred at the hit height, so in such a world it never matches on the plane's clicks. Where it does match, it can fill an occupied cell (`GroundPlacement.FaceClickCanOverlap`, `GroundPlacement.PlaneClickOverlapsAfterImport`). A block centred at -0.5 can enter the world through an imported or loaded build, since imports accept any decoded blocks.
- **Duplicate registration** throws (`src/plugins/blocks/registry.ts:7-9`), and the model returns `Failure`.
- **Stacking rule.** The ground stacking rule takes the first gap scanning upward from level 0 (`src/components/game/SoftCirclePlane.tsx:77-91`).
- **Undo then redo.** The pair restores the blocks in a settled state, meaning no commit is pending (`StoreProperties.UndoRedoSettled`). While an edit waits for its commit, the pair brings back the last committed snapshot (`StoreProperties.UndoRedoDropsPendingEdit`).

## Model

| member | source | states |
|---|---|---|
| Seqs.Filter | src/store/gameState.ts:95 | `Array.filter`: the result holds exactly the elements that pass the test, and keeps everything when all pass |
| Seqs.FilterAppend | src/store/gameState.ts:95 | filtering a concatenation is the concatenation of the filtered parts, so survivors keep their relative order |
| Seqs.FirstIndex | src/store/gameState.ts:221 | the first index satisfying the test, or none exactly when no element does |
| Seqs.Find | src/store/gameState.ts:221 | `Array.find`: a matching member, the head when the head matches, none exactly when nothing matches |
| Seqs.FindAppend | src/store/gameState.ts:221 | a match in the prefix hides the suffix; otherwise the search continues into the suffix |
| Geometry.Near | src/plugins/blocks/BaseBlockPlugin.ts:33-35 | the 0.1 epsilon test on quarter-unit values holds exactly when the values are equal |
| Geometry.Apart | src/components/game/SoftCirclePlane.tsx:83 | the "differs by more than 0.1" test holds exactly when the values differ |
| Geometry.NearVec | src/plugins/blocks/BaseBlockPlugin.ts:32-36 | epsilon-equality on all three axes is position equality |
| Geometry.Snap | src/components/game/SoftCirclePlane.tsx:100-101 | `floor(v) + 0.5` is the centre of the unit cell containing v: within half a cell below or above, and at offset 0.5 in its cell |
| Geometry.SnapIdempotent | src/components/game/SoftCirclePlane.tsx:100-101 | a cell centre snaps to itself |
| Geometry.SnapSameCell | src/components/game/SoftCirclePlane.tsx:100-101 | two points snap alike exactly when they lie in the same cell |
| BlockPlugins.CanPlace | src/plugins/blocks/BaseBlockPlugin.ts:30-37 | `canPlace` is false exactly when some existing block has the same position |
| BlockPlugins.BasePlacementPosition | src/plugins/blocks/BaseBlockPlugin.ts:39-45 | with a face normal the result is click + normal; without one it is the click position |
| BlockPlugins.StairPlacementPosition | src/plugins/blocks/StairBlockPlugin.ts:29-38 | x and z equal the base policy's; an upward normal adds 0.25 in y on top of click + normal; otherwise the base result |
| BlockPlugins.FaceOf | src/plugins/blocks/cube.ts:5-12 | the `FaceIndex` member with a given number, none outside 0..5 |
| BlockPlugins.Ordinal | src/plugins/blocks/cube.ts:5-12 | each `FaceIndex` member's value lies in the range 0..5 that `canPlaceOnFace` accepts; with `FaceOf` it round-trips |
| BlockPlugins.FaceOrdinalRoundTrip | src/plugins/blocks/cube.ts:5-12 | every face's number maps back to that face |
| BlockPlugins.CubePlacementPosition | src/plugins/blocks/cube.ts:37-39 | the cube policy is the base policy with a mandatory normal: current + normal |
| BlockPlugins.CanPlaceOnFace | src/plugins/blocks/cube.ts:49-52 | `canPlaceOnFace(i)` holds exactly for 0 <= i <= 5 |
| BlockPlugins.PlacementOffset | src/plugins/blocks/cube.ts:54-73 | a valid integer face index gives a unit step along one axis, with RIGHT pointing to +x, TOP to +y and FRONT to +z as the enum documents (cube.ts:6-10); any other integer gives the zero vector |
| BlockPlugins.OppositeFacesNegate | src/plugins/blocks/cube.ts:56-68 | faces 0/1, 2/3 and 4/5 have negated offsets |
| BlockPlugins.CanPlaceOnFaceIffNonZeroOffset | src/plugins/blocks/cube.ts:49-73 | an integer face index is accepted exactly when its offset is non-zero |
| BlockPlugins.OffsetsInjective | src/plugins/blocks/cube.ts:56-68 | distinct faces have distinct offsets |
| BlockPlugins.PlaceOnFaceIsNeighbour | src/plugins/blocks/cube.ts:37-68 | placing on a valid face lands one grid step away along exactly one axis |
| BlockPlugins.PluginPlacementPosition | src/plugins/blocks/StairBlockPlugin.ts:29-37 | whichever plugin is dispatched, x and z agree with the base policy; base plugins give exactly the base result; the stair plugin adds the 0.25 lift on an upward normal and otherwise gives the base result |
| BlockPlugins.CanPlaceEmpty | src/plugins/blocks/BaseBlockPlugin.ts:31 | every position is free in an empty world |
| BlockPlugins.CanPlaceRejectsAppended | src/plugins/blocks/BaseBlockPlugin.ts:31-36 | after appending a block at p, p is no longer free |
| BlockPlugins.CanPlaceAppendElsewhere | src/plugins/blocks/BaseBlockPlugin.ts:31-36 | appending a block elsewhere does not change whether p is free |
| BlockPlugins.CanPlaceKeepsNoOverlap | src/plugins/blocks/BaseBlockPlugin.ts:30-37 | appending a block that `canPlace` accepts keeps every cell singly occupied |
| Blocks.FilterKeepsNoOverlap | src/store/gameState.ts:95 | filtering the blocks keeps every cell singly occupied |
| Registry.Has | src/plugins/blocks/registry.ts:7 | `plugins.has(type)` holds exactly when some registered plugin has that tag |
| Registry.Register | src/plugins/blocks/registry.ts:6-11 | fails with the tag exactly when the tag is present; otherwise appends the plugin and keeps tags distinct |
| Registry.Get | src/plugins/blocks/registry.ts:13-15 | undefined exactly for unregistered tags; otherwise a registered plugin with that tag |
| Registry.GetAll | src/plugins/blocks/registry.ts:17-19 | every registered plugin is listed once, in registration order, and in a registry without duplicate tags each listed plugin is what `get` returns for its own tag |
| Registry.GetTypes | src/plugins/blocks/registry.ts:21-23 | one tag per registered plugin, in registration order (the order `getAll` lists them), with no duplicates |
| Registry.RegisterThenGet | src/plugins/blocks/registry.ts:6-15 | after registering, `get` finds the new plugin, and other tags resolve as before |
| Registry.RegisterEachCounts | src/plugins/blocks/registry.ts:4-19 | across independent register calls, `getAll` keeps earlier plugins in order and grows by the number of successes |
| Registry.RegisterEachListsAll | src/plugins/blocks/registry.ts:6-19 | registering plugins with distinct new tags succeeds for each, and `getAll` then lists exactly the earlier plugins followed by the new ones in registration order |
| Registry.DefaultRegistration | src/plugins/blocks/index.ts:6-7 | registering the cube and stair plugins succeeds, and the types are listed in that order |
| GameStore.AddBlock | src/store/gameState.ts:65-90 | appends exactly one block (the payload with the given id), keeps earlier blocks in order, schedules a commit, and changes nothing else |
| GameStore.RemoveBlock | src/store/gameState.ts:92-116 | keeps exactly the blocks with other ids; an absent id leaves the blocks unchanged; schedules a commit either way |
| GameStore.Truncate | src/store/gameState.ts:81 | `slice(0, n)` is the prefix of length min(n, length) |
| GameStore.CommitHistory | src/store/gameState.ts:80-84 | truncates after the cursor and pushes the blocks; the cursor then points at the last entry, which equals the blocks |
| GameStore.FireHistoryTimer | src/store/gameState.ts:77-87 | runs the commit only when one is pending, leaves nothing pending, keeps the cursor valid, and changes no field besides the history, the cursor and the pending flag |
| GameStore.Undo | src/store/gameState.ts:176-188 | a no-op at index 0; otherwise moves the cursor back one and shows that snapshot; keeps the cursor valid |
| GameStore.Redo | src/store/gameState.ts:190-202 | a no-op at the last entry; otherwise moves the cursor forward one and shows that snapshot; keeps the cursor valid |
| GameStore.ClearBlocks | src/store/gameState.ts:262-273 | empties the blocks, drops the redo entries, appends `[]` and advances the cursor, so the cursor's snapshot is empty |
| GameStore.FindBuild | src/store/gameState.ts:221 | a saved build with the id, or none exactly when no build has it |
| GameStore.SaveBuild | src/store/gameState.ts:204-216 | appends one build holding the current blocks and changes nothing else |
| GameStore.LoadBuild | src/store/gameState.ts:218-229 | a known id installs that build's blocks with history `[blocks]` and index 0; an unknown id changes nothing |
| GameStore.DeleteBuild | src/store/gameState.ts:231-236 | keeps exactly the builds with other ids; afterwards the id is not found |
| GameStore.ExportBuild | src/store/gameState.ts:238-243 | an unknown id gives ""; otherwise the export fails exactly when the encoder throws, and succeeds with the encoding of the found build |
| GameStore.ImportBuild | src/store/gameState.ts:245-260 | failed decoding leaves the state unchanged; success appends exactly one build under the new id |
| GameStore.SetSelectedBlockType | src/store/gameState.ts:118-123 | sets the selected type and nothing else |
| GameStore.SetSelectedColor | src/store/gameState.ts:125-130 | sets the selected colour and nothing else |
| GameStore.SetHoveredBlock | src/store/gameState.ts:133-157 | an unchanged id is skipped; otherwise the requested id ends up hovered and nothing else changes |
| GameStore.SetHoveredFace | src/store/gameState.ts:159-167 | an unchanged index is skipped; otherwise the index is set and nothing else changes |
| GameStore.ToggleTheme | src/store/gameState.ts:169-174 | the theme changes and nothing else does |
| StoreProperties.InitialInv | src/store/gameState.ts:9-21 | the initial state satisfies the history invariant |
| StoreProperties.StepPreservesInv | src/store/gameState.ts:65-273 | every action keeps `0 <= historyIndex < history.length` and, when no commit is pending, blocks == history[historyIndex] |
| StoreProperties.RunPreservesInv | src/store/gameState.ts:65-273 | any sequence of actions keeps the history invariant |
| StoreProperties.ReachableInv | src/store/gameState.ts:9-273 | every state reachable from the initial state satisfies the history invariant |
| StoreProperties.ApplyEdits | src/store/gameState.ts:73-77 | a burst of edits leaves the history and cursor alone and leaves a commit pending |
| StoreProperties.DebounceCoalesces | src/store/gameState.ts:73-87 | any burst of add/remove calls before the timer fires yields exactly one snapshot, the final blocks; a second firing adds nothing |
| StoreProperties.SpacedEditsCommitEach | src/store/gameState.ts:77-87 | edits each followed by the timer add one history entry apiece, keeping the cursor at the newest |
| StoreProperties.AddThenRemove | src/store/gameState.ts:65-95 | removing a just-added block with a fresh id restores the previous blocks |
| StoreProperties.RemoveKeepsOrder | src/store/gameState.ts:95 | removal from a concatenation is removal from each part, so the remaining blocks keep their order |
| StoreProperties.RemoveKeepsNoOverlap | src/store/gameState.ts:95 | removal keeps every cell singly occupied |
| StoreProperties.UndoThenRedo | src/store/gameState.ts:176-202 | after a real undo, redo restores the cursor and shows the snapshot under it |
| StoreProperties.UndoRedoSettled | src/store/gameState.ts:176-202 | with no commit pending, undo then redo (and redo then undo) is the identity |
| StoreProperties.UndoRedoDropsPendingEdit | src/store/gameState.ts:65-202 | an edit whose commit is still pending is not restored by undo then redo |
| StoreProperties.ClearWhilePending | src/store/gameState.ts:262-273 | clearing with a commit pending ends with two empty snapshots, so the next undo still shows an empty world |
| StoreProperties.LoadWhilePending | src/store/gameState.ts:218-229 | loading with a commit pending ends with history [b, b] at index 1 |
| StoreProperties.SaveClearLoad | src/store/gameState.ts:204-273 | save under a fresh id, clear, load: the saved blocks are live again, with history [blocks] at index 0 |
| StoreProperties.DeleteKeepsOrder | src/store/gameState.ts:234 | deleting from a concatenation deletes from each part, so the remaining builds keep their order |
| StoreProperties.ExportThenImport | src/store/gameState.ts:238-258 | exporting a build the encoder accepts succeeds, and importing the text with a decoder that inverts the encoder appends one build with the same name and blocks under a new, different id |
| StoreProperties.ExportUnknownThenImport | src/store/gameState.ts:238-258 | an unknown id exports "" without failing, and importing text the decoder rejects leaves the state unchanged |
| StoreProperties.ToggleThemeTwice | src/store/gameState.ts:169-174 | toggling twice restores the state |
| StoreProperties.HoverSettersIdempotent | src/store/gameState.ts:133-167 | repeating a hover request changes nothing further |
| GroundPlacement.InsertByHeight | src/components/game/SoftCirclePlane.tsx:74 | inserting into a height-sorted column keeps it sorted and adds exactly that block |
| GroundPlacement.SortByHeight | src/components/game/SoftCirclePlane.tsx:74 | the sort by ascending y is sorted and a permutation of its input |
| GroundPlacement.GetBlocksInColumn | src/components/game/SoftCirclePlane.tsx:71-75 | exactly the blocks whose x and z match the column, with their multiplicities, lowest first |
| GroundPlacement.ScanFrom | src/components/game/SoftCirclePlane.tsx:82-88 | the scan rises at most one level per block in the column |
| GroundPlacement.LowestEmptyLevel | src/components/game/SoftCirclePlane.tsx:77-91 | the level found is at most the number of blocks in the column, and is 0 on an empty column |
| GroundPlacement.FindLowestEmptyPosition | src/components/game/SoftCirclePlane.tsx:77-91 | the loop with its `break` computes the same level as the scan |
| GroundPlacement.LowestEmptyLevelIsFirstGap | src/components/game/SoftCirclePlane.tsx:77-91 | when the column's blocks have distinct heights on whole non-negative levels, the level found is free in that column and every lower level is occupied; other columns may be arbitrary |
| GroundPlacement.TidyWorldTidyColumns | src/components/game/SoftCirclePlane.tsx:71-91 | a world with distinct cells and whole non-negative levels has every column tidy |
| GroundPlacement.ScanFindsGap | src/components/game/SoftCirclePlane.tsx:82-88 | on a strictly increasing column of whole levels, the scan stops at a free level with every level below filled |
| GroundPlacement.SameColumnDistinctHeights | src/components/game/SoftCirclePlane.tsx:71-75 | blocks of one column in distinct cells have distinct heights |
| GroundPlacement.SortKeepsDistinctHeights | src/components/game/SoftCirclePlane.tsx:74 | sorting keeps heights distinct |
| GroundPlacement.DuplicateCellDefeatsScan | src/components/game/SoftCirclePlane.tsx:82-88 | with two entries in one cell at level 0, the scan answers level 1 although level 1 is occupied |
| GroundPlacement.ClickedBlock | src/components/game/SoftCirclePlane.tsx:105-108 | the face branch's `find`: a block at the snapped x/z and the hit y, or none exactly when there is none |
| GroundPlacement.ClickPosition | src/components/game/SoftCirclePlane.tsx:99-123 | x and z are the snapped centres; a face hit on a matching block gives that block's y + 1; otherwise the column's lowest empty level |
| GroundPlacement.HandleClick | src/components/game/SoftCirclePlane.tsx:93-130 | while dragging, nothing changes; otherwise exactly one block is appended, with the selected type and colour at `ClickPosition` |
| GroundPlacement.ClickLandsOnCellCentre | src/components/game/SoftCirclePlane.tsx:100-101 | a placed block stands at the centre of the unit cell containing the hit point |
| GroundPlacement.GroundClickCellIsFree | src/components/game/SoftCirclePlane.tsx:99-123 | a click at the plane's height -0.5 on a tidy column, whatever face it reports, finds no clicked block and picks a free cell on a whole non-negative level |
| GroundPlacement.GroundClickKeepsWorldTidy | src/components/game/SoftCirclePlane.tsx:93-136 | a click at the plane's height, whatever face it reports, lands in a free cell and keeps cells distinct and levels whole |
| GroundPlacement.FaceClickCanOverlap | src/components/game/SoftCirclePlane.tsx:104-117 | on an event reporting a face hit at a block's centre height, which the plane does not deliver, the face branch places into an occupied cell |
| GroundPlacement.PlaneClickOverlapsAfterImport | src/components/game/SoftCirclePlane.tsx:104-117 | with a block centred at the plane's height -0.5 (as an imported build may hold), a genuine plane click takes the face branch and fills the occupied cell above it |
| DragDetection.PointerDown | src/hooks/useDragDetection.ts:9-12 | clears `isDragging` and records the start position |
| DragDetection.PointerMove | src/hooks/useDragDetection.ts:14-24 | a no-op without a start; sets `isDragging` exactly when the move exceeds 5 px; never clears it |
| DragDetection.PointerUp | src/hooks/useDragDetection.ts:26-28 | clears the start position and keeps `isDragging` |
| DragDetection.GestureIsDragIffFarMove | src/hooks/useDragDetection.ts:9-24 | after a press and moves, `isDragging` holds exactly when some move went beyond the threshold from the press |
| DragDetection.MovesFrom | src/hooks/useDragDetection.ts:14-24 | moves within a gesture keep the start, and they set the drag mark exactly on a far move |
| DragDetection.MovesAfterUpIgnored | src/hooks/useDragDetection.ts:14-28 | after pointer-up, moves change nothing |
| DragDetection.ThresholdExamples | src/hooks/useDragDetection.ts:17-21 | the threshold is strict and Euclidean: 5 px and 3-4-5 moves are not drags; 6 px and (4, 4) are |
| HoverThrottle.TimerFires | src/store/gameState.ts:154-156 | the callback applies its captured id and clears the pending flag |
| HoverThrottle.RequestAsWritten | src/store/gameState.ts:133-157 | skips unchanged ids; while pending, writes the id at once; otherwise schedules a callback that captures the id |
| HoverThrottle.AsWrittenLatestRequestLost | src/store/gameState.ts:141-156 | two different requests in one window end on the first |
| HoverThrottle.Request | src/store/gameState.ts:133-157 | the corrected throttle: a request during the window also retargets the callback |
| HoverThrottle.RequestsSettleOnLast | src/store/gameState.ts:141-156 | after any burst, the corrected throttle is set to settle on the last request |
| HoverThrottle.LatestRequestWins | src/store/gameState.ts:141-156 | with the corrected throttle, the latest request is hovered once the timer fires |
| Interaction.DraggedClickAddsNothing | src/components/game/SoftCirclePlane.tsx:97 | a click ending a gesture with a far move adds nothing |
| Interaction.TapAddsOneBlock | src/components/game/SoftCirclePlane.tsx:97-129 | a click ending a gesture with no far move appends one block of the selected type and colour |
| Interaction.GroundClickScenario | src/components/game/SoftCirclePlane.tsx:99-129 | on empty ground, a click at (2.25, -0.5, 2.25) places a block at (2.5, 0, 2.5) |
| Interaction.TopFaceScenario | src/components/game/SoftCirclePlane.tsx:104-117 | on a synthetic event reporting a face hit at the centre height of a cube at (1.5, 0, 1.5), the face branch places at (1.5, 1, 1.5), which the cube policy also gives for the top face |

## Findings

| source | as written | input that shows it | evidently intended | confidence | as-written member | corrected member |
|---|---|---|---|---|---|---|
| src/store/gameState.ts:141-156 | the throttle callback applies the id captured when it was scheduled, and a request made while pending only writes `hoveredBlockId` directly | start with nothing hovered and no pending update; call `setHoveredBlock("A")`, then `setHoveredBlock("B")` within 30 ms; when the timer fires, "A" is hovered | the latest requested id is hovered once the throttle settles | high, not executed | HoverThrottle.AsWrittenLatestRequestLost | HoverThrottle.LatestRequestWins |

The store's `GameStore.SetHoveredBlock` is the settled effect of one request. That is what the corrected throttle produces for a single call.

## Left out

- Rendering is not modelled: meshes, materials, bounding boxes, the shader and JSX of the ground plane, the scene, camera and lighting. These are calls into three.js with no logic to state.
- React UI components and their tests are not modelled: toolbars, the theme toggle, the build manager, and App. The shift-click route from a block mesh to `removeBlock` (src/components/game/Block.tsx:13-15) is covered only as the `RemoveBlock` action itself.
- Persistence is not modelled: zustand `persist`, localStorage, `partialize`, `onRehydrateStorage` and `convertToVector3`. The last only rebuilds `Vector3` instances, so blocks are plain values here.
- `btoa`/`atob`/`JSON` are not modelled. They are an abstract encoder and a partial decoder, and base64 and JSON facts are not proved.
- `generateId` and `Date.now` are not modelled. Ids are supplied values. Timestamps, `lastUpdateTimestamp` and the `createdAt`/`updatedAt` fields of saved builds are dropped, because nothing depends on them.
- Timer durations are not modelled: the 500 ms debounce and the 30 ms throttle delays. Timers are explicit pending state plus a firing step.
- React state batching in the drag detector is not modelled. Each handler sees the state left by the previous handler.
- Floating point is not modelled. Positions are quarter-unit integers, so hit points off that lattice are not represented. Pointer positions are whole pixels, and the `sqrt` is a squared comparison.
- BlockPlugins.CanPlaceOnFaceIffNonZeroOffset: face indices are integers. The source's `number` also admits fractions such as 2.5: `canPlaceOnFace(2.5)` is true, but `getPlacementOffset(2.5)` falls through to the zero vector (`src/plugins/blocks/cube.ts:51`, `cube.ts:69-71`). The iff holds only on integers.
- BlockPlugins.PlacementOffset: states a unit offset for valid integer indices only, for the same reason.
- GroundPlacement.GroundClickKeepsWorldTidy: assumes a tidy world. A world holding a block centred at -0.5, which an imported build can bring in, lets the face branch match a plane click and fill an occupied cell; `GroundPlacement.PlaneClickOverlapsAfterImport` exhibits that case.
- GameStore.ExportBuild: the encoder is abstract. Which builds make `btoa` throw (characters above U+00FF anywhere in the JSON text) is not characterised; the model only lets the encoder fail.
- `src/plugins/blocks/index.ts` is not part of this model apart from the two registrations in `Registry.DefaultRegistration`. Its default import does not match the named export of the registry.
- `CubeBlockPlugin.ts` adds only a type tag over the base plugin. It appears as the constant `BlockPlugins.CubeBlockPlugin`.
- Plugin unregistration is not modelled. The registry source has no such method.
- GameStore.SetHoveredBlock: states the settled effect of an isolated request only. The throttle race is modelled separately in HoverThrottle.

=== FILE: basics.dfy ===
/** Small shared vocabulary: optional values, failures, and the identifier
    and colour strings the store passes around. */
module Basics {

  /** A value that may be absent: TypeScript's `T | undefined` / `T | null`. */
  datatype Option<+T> = None | Some(value: T)

  /** Either a value or the error that the source would have thrown. */
  datatype Result<+R, +E> = Success(value: R) | Failure(error: E)

  /** Block and build identifiers (produced by `generateId` in the source). */
  type Id = string

  /** CSS colour strings such as "#ffffff". */
  type Color = string

  function Abs(a: int): (r: nat)
    ensures r == a || r == -a
  {
    if a < 0 then -a else a
  }
}

=== FILE: block_plugins.dfy ===
/** Placement and occupancy policies of the block plugins:
    src/plugins/blocks/BaseBlockPlugin.ts, StairBlockPlugin.ts and cube.ts. */
module BlockPlugins {
  import opened Basics
  import opened Geometry
  import opened Blocks

  // ---------------------------------------------------------------------
  // BaseBlockPlugin

  /** `canPlace`: no existing block is epsilon-equal to `position`. */
  function CanPlace(position: Vec, existing: seq<Block>): (r: bool)
    ensures r <==> forall b :: b in existing ==> b.position != position
  {
    !exists b :: b in existing && NearVec(b.position, position)
  }

  /** `getPlacementPosition` of the base class: step along the face normal
      when one is given, otherwise stay at the click position. */
  function BasePlacementPosition(click: Vec, normal: Option<Vec>): (r: Vec)
    ensures normal.None? ==> r == click
    ensures normal.Some? ==> r == Add(click, normal.value)
  {
    match normal
    case None => click
    case Some(n) => Vec(click.x + n.x, click.y + n.y, click.z + n.z)
  }

  // ---------------------------------------------------------------------
  // StairBlockPlugin

  /** The stair's upward bias, 0.25 world units. */
  const StairLift: int := 1

  /** The stair override: the base result, raised by 0.25 when the face
      normal points upward. */
  function StairPlacementPosition(click: Vec, normal: Option<Vec>): (r: Vec)
    ensures r.x == BasePlacementPosition(click, normal).x
    ensures r.z == BasePlacementPosition(click, normal).z
    ensures normal.Some? && normal.value.y > 0 ==>
              r == Add(Add(click, normal.value), Vec(0, StairLift, 0))
    ensures normal.Some? && normal.value.y <= 0 ==> r == Add(click, normal.value)
    ensures normal.None? ==> r == click
  {
    var position := BasePlacementPosition(click, normal);
    if normal.Some? && normal.value.y > 0 then position.(y := position.y + StairLift)
    else position
  }

  // ---------------------------------------------------------------------
  // cube.ts

  /** The `FaceIndex` enum: the six faces of a Three.js box in geometry order. */
  datatype FaceIndex = Right | Left | Top | Bottom | Front | Back

  /** The enum member's numeric value: every face is numbered inside the
      range 0..5 that `canPlaceOnFace` accepts. */
  function Ordinal(f: FaceIndex): (i: int)
    ensures 0 <= i <= 5
  {
    match f
    case Right => 0
    case Left => 1
    case Top => 2
    case Bottom => 3
    case Front => 4
    case Back => 5
  }

  /** The face with a given numeric index, if the index names one. */
  function FaceOf(i: int): (r: Option<FaceIndex>)
    ensures r.Some? ==> Ordinal(r.value) == i
    ensures r.None? <==> !(0 <= i <= 5)
  {
    if i == 0 then Some(Right)
    else if i == 1 then Some(Left)
    else if i == 2 then Some(Top)
    else if i == 3 then Some(Bottom)
    else if i == 4 then Some(Front)
    else if i == 5 then Some(Back)
    else None
  }

  lemma FaceOrdinalRoundTrip(f: FaceIndex)
    ensures FaceOf(Ordinal(f)) == Some(f)
  {
  }

  /** cube.ts `getPlacementPosition`: the normal is mandatory there. */
  function CubePlacementPosition(current: Vec, faceNormal: Vec): (r: Vec)
    ensures r == BasePlacementPosition(current, Some(faceNormal))
  {
    Vec(current.x + faceNormal.x, current.y + faceNormal.y, current.z + faceNormal.z)
  }

  /** `canPlaceOnFace`: the index lies between RIGHT and BACK. */
  function CanPlaceOnFace(faceIndex: int): (r: bool)
    ensures r <==> 0 <= faceIndex <= 5
  {
    Ordinal(Right) <= faceIndex <= Ordinal(Back)
  }

  /** One grid step (one world unit) along a single axis. */
  predicate IsUnitAxis(v: Vec) {
    || (Abs(v.x) == Unit && v.y == 0 && v.z == 0)
    || (v.x == 0 && Abs(v.y) == Unit && v.z == 0)
    || (v.x == 0 && v.y == 0 && Abs(v.z) == Unit)
  }

  /** `getPlacementOffset`: the outward normal of each face, scaled to
      quarter units; the zero vector for an index that names no face. */
  function PlacementOffset(faceIndex: int): (r: Vec)
    ensures CanPlaceOnFace(faceIndex) ==> IsUnitAxis(r)
    ensures !CanPlaceOnFace(faceIndex) ==> r == Zero
    ensures FaceOf(faceIndex) == Some(Right) ==> r.x > 0
    ensures FaceOf(faceIndex) == Some(Top) ==> r.y > 0
    ensures FaceOf(faceIndex) == Some(Front) ==> r.z > 0
  {
    match FaceOf(faceIndex)
    case Some(Right) => Vec(Unit, 0, 0)
    case Some(Left) => Vec(-Unit, 0, 0)
    case Some(Top) => Vec(0, Unit, 0)
    case Some(Bottom) => Vec(0, -Unit, 0)
    case Some(Front) => Vec(0, 0, Unit)
    case Some(Back) => Vec(0, 0, -Unit)
    case None => Zero
  }

  /** The face opposite face i: 0/1, 2/3 and 4/5 are pairs. */
  function Opposite(i: int): int
    requires 0 <= i <= 5
  {
    if i % 2 == 0 then i + 1 else i - 1
  }

  /** Opposite faces have negated offsets. */
  lemma OppositeFacesNegate(i: int)
    requires 0 <= i <= 5
    ensures PlacementOffset(Opposite(i)) == Neg(PlacementOffset(i))
  {
    OffsetTable();
    var j := Opposite(i);
    if i == 0 { assert j == 1; }
    else if i == 1 { assert j == 0; }
    else if i == 2 { assert j == 3; }
    else if i == 3 { assert j == 2; }
    else if i == 4 { assert j == 5; }
    else { assert j == 4; }
  }

  /** The six offsets of the `getPlacementOffset` switch. */
  lemma OffsetTable()
    ensures PlacementOffset(0) == Vec(Unit, 0, 0) && PlacementOffset(1) == Vec(-Unit, 0, 0)
    ensures PlacementOffset(2) == Vec(0, Unit, 0) && PlacementOffset(3) == Vec(0, -Unit, 0)
    ensures PlacementOffset(4) == Vec(0, 0, Unit) && PlacementOffset(5) == Vec(0, 0, -Unit)
  {
    assert FaceOf(0) == Some(Right) && FaceOf(1) == Some(Left);
    assert FaceOf(2) == Some(Top) && FaceOf(3) == Some(Bottom);
    assert FaceOf(4) == Some(Front) && FaceOf(5) == Some(Back);
  }

  /** A face index is accepted exactly when its offset is non-zero. */
  lemma CanPlaceOnFaceIffNonZeroOffset(i: int)
    ensures CanPlaceOnFace(i) <==> PlacementOffset(i) != Zero
  {
  }

  /** Distinct faces have distinct offsets. */
  lemma OffsetsInjective(i: int, j: int)
    requires CanPlaceOnFace(i) && CanPlaceOnFace(j) && i != j
    ensures PlacementOffset(i) != PlacementOffset(j)
  {
  }

  /** Placing on face i of a block at p lands in the neighbouring cell: one
      grid step away along exactly one axis. */
  lemma PlaceOnFaceIsNeighbour(p: Vec, i: int)
    requires CanPlaceOnFace(i)
    ensures var q := CubePlacementPosition(p, PlacementOffset(i));
            q != p && IsUnitAxis(Vec(q.x - p.x, q.y - p.y, q.z - p.z))
  {
  }

  // ---------------------------------------------------------------------
  // Plugins

  /** Which `getPlacementPosition` a plugin uses. */
  datatype Policy = BasePolicy | StairPolicy

  /** The data part of `BlockPlugin`; mesh construction is not modelled. */
  datatype Plugin = Plugin(kind: string, displayName: string, description: string, policy: Policy)

  /** src/plugins/blocks/CubeBlockPlugin.ts */
  const CubeBlockPlugin: Plugin := Plugin("cube", "Cube", "A basic cube block", BasePolicy)

  /** src/plugins/blocks/StairBlockPlugin.ts */
  const StairBlockPlugin: Plugin :=
    Plugin("stair", "Stair", "A stair block that can be used to create stairs", StairPolicy)

  /** Dynamic dispatch of `getPlacementPosition` on a plugin. */
  function PluginPlacementPosition(p: Plugin, click: Vec, normal: Option<Vec>): (r: Vec)
    ensures r.x == BasePlacementPosition(click, normal).x
    ensures r.z == BasePlacementPosition(click, normal).z
    ensures p.policy == BasePolicy ==> r == BasePlacementPosition(click, normal)
    ensures p.policy == StairPolicy && normal.Some? && normal.value.y > 0 ==>
              r.y == click.y + normal.value.y + StairLift
    ensures p.policy == StairPolicy && !(normal.Some? && normal.value.y > 0) ==>
              r == BasePlacementPosition(click, normal)
  {
    match p.policy
    case BasePolicy => BasePlacementPosition(click, normal)
    case StairPolicy => StairPlacementPosition(click, normal)
  }

  // ---------------------------------------------------------------------
  // Properties relating several calls

  /** `canPlace(p, [])` holds. */
  lemma CanPlaceEmpty(p: Vec)
    ensures CanPlace(p, [])
  {
  }

  /** Once a block sits at p, p can no longer be placed at. */
  lemma CanPlaceRejectsAppended(p: Vec, existing: seq<Block>, b: Block)
    requires b.position == p
    ensures !CanPlace(p, existing + [b])
  {
    assert b in existing + [b];
  }

  /** Appending a block elsewhere keeps the answer for p. */
  lemma CanPlaceAppendElsewhere(p: Vec, existing: seq<Block>, b: Block)
    requires b.position != p
    ensures CanPlace(p, existing + [b]) == CanPlace(p, existing)
  {
    assert forall c :: c in existing + [b] <==> c in existing || c == b;
  }

  /** Adding a block the occupancy check accepts keeps every cell singly
      occupied. */
  lemma CanPlaceKeepsNoOverlap(existing: seq<Block>, b: Block)
    requires NoOverlap(existing)
    requires CanPlace(b.position, existing)
    ensures NoOverlap(existing + [b])
  {
    var s := existing + [b];
    forall i, j | 0 <= i < j < |s|
      ensures s[i].position != s[j].position
    {
      if j == |existing| {
        assert s[i] in existing;
      }
    }
  }
}

=== FILE: blocks.dfy ===
/** The block records held by the store (src/store/types.ts). */
module Blocks {
  import opened Basics
  import opened Geometry
  import opened Seqs

  /** `BlockType = 'cube' | 'stair' | 'slab'`. */
  datatype BlockType = Cube | Stair | Slab

  /** A placed block. Positions are in quarter units (see Geometry). */
  datatype Block = Block(id: Id, position: Vec, kind: BlockType, color: Color)

  /** `Omit<Block, 'id'>`: what a caller hands to `addBlock`. */
  datatype BlockPayload = BlockPayload(position: Vec, kind: BlockType, color: Color)

  function WithId(p: BlockPayload, id: Id): Block {
    Block(id, p.position, p.kind, p.color)
  }

  /** No block of `blocks` carries `id`. */
  predicate FreshId(id: Id, blocks: seq<Block>) {
    forall b :: b in blocks ==> b.id != id
  }

  /** No two entries occupy the same cell: the store's occupancy invariant. */
  ghost predicate NoOverlap(blocks: seq<Block>) {
    forall i, j :: 0 <= i < j < |blocks| ==> blocks[i].position != blocks[j].position
  }

  /** Every block rests on a whole, non-negative level. */
  ghost predicate OnLevels(blocks: seq<Block>) {
    forall b :: b in blocks ==> b.position.y >= 0 && b.position.y % Unit == 0
  }

  /** Filtering keeps cells singly occupied. */
  lemma {:induction false} FilterKeepsNoOverlap(bs: seq<Block>, keep: Block -> bool)
    requires NoOverlap(bs)
    ensures NoOverlap(Filter(bs, keep))
    decreases |bs|
  {
    if |bs| > 0 {
      FilterKeepsNoOverlap(bs[1..], keep);
      var rest := Filter(bs[1..], keep);
      assert forall b :: b in bs[1..] ==> b.position != bs[0].position by {
        forall b | b in bs[1..] ensures b.position != bs[0].position {
          var k :| 0 <= k < |bs[1..]| && bs[1..][k] == b;
          assert bs[k + 1] == b;
        }
      }
      if keep(bs[0]) {
        var r := [bs[0]] + rest;
        forall i, j | 0 <= i < j < |r| ensures r[i].position != r[j].position {
          if i == 0 {
            assert r[j] in rest;
          } else {
            assert r[i] == rest[i - 1] && r[j] == rest[j - 1];
          }
        }
      }
    }
  }
}

=== FILE: drag_detection.dfy ===
/** The drag detector of src/hooks/useDragDetection.ts: three pointer
    handlers over the pair (isDragging, initialPointerPos). A click that
    follows a drag is not a placement. */
module DragDetection {
  import opened Basics

  /** Client (screen) coordinates in pixels. */
  datatype PointerPos = PointerPos(x: int, y: int)

  datatype DragState = DragState(isDragging: bool, initialPointerPos: Option<PointerPos>)

  const InitialDrag: DragState := DragState(false, None)

  /** Pixels the pointer must travel before the gesture counts as a drag. */
  const DragThreshold: int := 5

  /** `Math.sqrt(dx * dx + dy * dy) > DRAG_THRESHOLD`, squared on both sides. */
  predicate BeyondThreshold(from: PointerPos, to: PointerPos) {
    var dx := to.x - from.x;
    var dy := to.y - from.y;
    dx * dx + dy * dy > DragThreshold * DragThreshold
  }

  /** `handlePointerDown`: a new gesture starts, not (yet) a drag. */
  function PointerDown(s: DragState, p: PointerPos): (r: DragState)
    ensures !r.isDragging && r.initialPointerPos == Some(p)
  {
    DragState(false, Some(p))
  }

  /** `handlePointerMove`: ignored outside a gesture; far enough from the
      start it marks the gesture as a drag; it never clears the mark. */
  function PointerMove(s: DragState, p: PointerPos): (r: DragState)
    ensures s.initialPointerPos.None? ==> r == s
    ensures r.initialPointerPos == s.initialPointerPos
    ensures s.isDragging ==> r.isDragging
    ensures r.isDragging <==>
              s.isDragging || (s.initialPointerPos.Some? && BeyondThreshold(s.initialPointerPos.value, p))
  {
    match s.initialPointerPos
    case None => s
    case Some(start) =>
      if BeyondThreshold(start, p) then s.(isDragging := true) else s
  }

  /** `handlePointerUp`: the gesture ends; `isDragging` keeps its value so
      the click that follows can see it. */
  function PointerUp(s: DragState): (r: DragState)
    ensures r.initialPointerPos.None?
    ensures r.isDragging == s.isDragging
  {
    s.(initialPointerPos := None)
  }

  /** A run of pointer moves. */
  function Moves(s: DragState, ps: seq<PointerPos>): DragState
    decreases |ps|
  {
    if |ps| == 0 then s else Moves(PointerMove(s, ps[0]), ps[1..])
  }

  /** A press at `start` followed by moves is a drag exactly when some move
      went beyond the threshold from `start`. */
  lemma {:induction false} GestureIsDragIffFarMove(s: DragState, start: PointerPos, ps: seq<PointerPos>)
    ensures var g := Moves(PointerDown(s, start), ps);
            && g.initialPointerPos == Some(start)
            && (g.isDragging <==> exists i :: 0 <= i < |ps| && BeyondThreshold(start, ps[i]))
  {
    MovesFrom(PointerDown(s, start), start, ps);
  }

  lemma {:induction false} MovesFrom(d: DragState, start: PointerPos, ps: seq<PointerPos>)
    requires d.initialPointerPos == Some(start)
    ensures var g := Moves(d, ps);
            && g.initialPointerPos == Some(start)
            && (g.isDragging <==> d.isDragging || exists i :: 0 <= i < |ps| && BeyondThreshold(start, ps[i]))
    decreases |ps|
  {
    if |ps| > 0 {
      var d' := PointerMove(d, ps[0]);
      MovesFrom(d', start, ps[1..]);
      if exists i :: 0 <= i < |ps| && BeyondThreshold(start, ps[i]) {
        var i :| 0 <= i < |ps| && BeyondThreshold(start, ps[i]);
        if i > 0 {
          assert ps[1..][i - 1] == ps[i];
        }
      }
      if exists i :: 0 <= i < |ps[1..]| && BeyondThreshold(start, ps[1..][i]) {
        var i :| 0 <= i < |ps[1..]| && BeyondThreshold(start, ps[1..][i]);
        assert ps[i + 1] == ps[1..][i];
      }
    }
  }

  /** Once the pointer is up, moves change nothing until the next press. */
  lemma {:induction false} MovesAfterUpIgnored(s: DragState, ps: seq<PointerPos>)
    ensures Moves(PointerUp(s), ps) == PointerUp(s)
    decreases |ps|
  {
    if |ps| > 0 {
      MovesAfterUpIgnored(s, ps[1..]);
    }
  }

  /** The threshold is strict and Euclidean: 5 px straight or a 3-4-5 move
      is a click, 6 px or 4 px diagonally is a drag. */
  lemma ThresholdExamples(p: PointerPos)
    ensures !BeyondThreshold(p, PointerPos(p.x + 5, p.y))
    ensures !BeyondThreshold(p, PointerPos(p.x + 3, p.y - 4))
    ensures BeyondThreshold(p, PointerPos(p.x + 6, p.y))
    ensures BeyondThreshold(p, PointerPos(p.x - 4, p.y + 4))
  {
  }
}

=== FILE: game_store.dfy ===
/** The zustand store of src/store/gameState.ts as one immutable record and
    one pure function per action.

    Two pieces of hidden state in the source become explicit here:
    - the module-level `historyUpdateTimeout`, scheduled by `addBlock` and
      `removeBlock`, is the flag `commitPending`; the timer firing is the
      separate step `FireHistoryTimer`;
    - fresh ids from `generateId` are parameters of the actions that need one. */
module GameStore {
  import opened Basics
  import opened Seqs
  import opened Blocks

  datatype Theme = Dark | Light

  /** A named snapshot. Timestamps are not modelled. */
  datatype SavedBuild = SavedBuild(id: Id, name: string, blocks: seq<Block>)

  datatype GameState = GameState(
    blocks: seq<Block>,
    selectedBlockType: BlockType,
    selectedColor: Color,
    history: seq<seq<Block>>,
    historyIndex: nat,
    hoveredBlockId: Option<Id>,
    hoveredFaceIndex: Option<int>,
    theme: Theme,
    savedBuilds: seq<SavedBuild>,
    commitPending: bool)

  /** `initialState`. */
  const Initial: GameState :=
    GameState([], Cube, "#ffffff", [[]], 0, None, None, Dark, [], false)

  /** The history cursor points at an entry of the log. */
  ghost predicate Valid(s: GameState) {
    s.historyIndex < |s.history|
  }

  /** The history invariant: a valid cursor, and whenever no commit is
      pending the live blocks are exactly the snapshot under the cursor. */
  ghost predicate Inv(s: GameState) {
    Valid(s) && (!s.commitPending ==> s.blocks == s.history[s.historyIndex])
  }

  // ---------------------------------------------------------------------
  // Block edits and the debounced history commit

  /** `addBlock`: append the payload under a fresh id and (re)start the
      history timer. */
  function AddBlock(s: GameState, payload: BlockPayload, id: Id): (r: GameState)
    ensures |r.blocks| == |s.blocks| + 1
    ensures r.blocks[..|s.blocks|] == s.blocks
    ensures r.blocks[|s.blocks|] == Block(id, payload.position, payload.kind, payload.color)
    ensures r.commitPending
    ensures r.(blocks := s.blocks, commitPending := s.commitPending) == s
    ensures Valid(s) ==> Valid(r)
  {
    s.(blocks := s.blocks + [WithId(payload, id)], commitPending := true)
  }

  function IdIsNot(id: Id): Block -> bool {
    (b: Block) => b.id != id
  }

  /** `removeBlock`: drop every block carrying `id` and (re)start the
      history timer, even when nothing was removed. */
  function RemoveBlock(s: GameState, id: Id): (r: GameState)
    ensures forall b :: b in r.blocks ==> b in s.blocks && b.id != id
    ensures forall b :: b in s.blocks && b.id != id ==> b in r.blocks
    ensures FreshId(id, s.blocks) ==> r.blocks == s.blocks
    ensures r.commitPending
    ensures r.(blocks := s.blocks, commitPending := s.commitPending) == s
    ensures Valid(s) ==> Valid(r)
  {
    s.(blocks := Filter(s.blocks, IdIsNot(id)), commitPending := true)
  }

  /** `history.slice(0, n)` for n >= 0. */
  function Truncate(h: seq<seq<Block>>, n: nat): (r: seq<seq<Block>>)
    ensures |r| == if n <= |h| then n else |h|
    ensures r == h[..|r|]
  {
    if n <= |h| then h[..n] else h
  }

  /** The body of the timer callback: drop the redo entries after the
      cursor, push a copy of the blocks and advance the cursor. */
  function CommitHistory(s: GameState): (r: GameState)
    ensures Valid(s) ==> r.history == s.history[..s.historyIndex + 1] + [s.blocks]
    ensures Valid(s) ==> r.historyIndex == |r.history| - 1
    ensures r.historyIndex == s.historyIndex + 1
    ensures |r.history| > 0 && r.history[|r.history| - 1] == s.blocks
    ensures r.(history := s.history, historyIndex := s.historyIndex) == s
  {
    s.(history := Truncate(s.history, s.historyIndex + 1) + [s.blocks],
       historyIndex := s.historyIndex + 1)
  }

  /** The debounce timer fires: runs the commit if one is scheduled. */
  function FireHistoryTimer(s: GameState): (r: GameState)
    ensures !s.commitPending ==> r == s
    ensures s.commitPending && Valid(s) ==>
              && r.history == s.history[..s.historyIndex + 1] + [s.blocks]
              && r.historyIndex == s.historyIndex + 1
              && r.historyIndex == |r.history| - 1
              && r.history[r.historyIndex] == r.blocks
    ensures !r.commitPending
    ensures r.blocks == s.blocks && r.savedBuilds == s.savedBuilds
    ensures r.(history := s.history, historyIndex := s.historyIndex, commitPending := s.commitPending) == s
    ensures Valid(s) ==> Valid(r)
  {
    if s.commitPending then CommitHistory(s).(commitPending := false) else s
  }

  // ---------------------------------------------------------------------
  // Undo / redo / clear

  /** `undo`: step the cursor back when it is not at the start and restore
      that snapshot (the source re-checks that the entry exists). */
  function Undo(s: GameState): (r: GameState)
    ensures s.historyIndex == 0 ==> r == s
    ensures Valid(s) && s.historyIndex > 0 ==>
              && r.historyIndex == s.historyIndex - 1
              && r.blocks == s.history[r.historyIndex]
              && r == s.(historyIndex := r.historyIndex, blocks := r.blocks)
    ensures Valid(s) ==> Valid(r)
  {
    if s.historyIndex > 0 then
      var i := s.historyIndex - 1;
      if i < |s.history| then s.(historyIndex := i, blocks := s.history[i])
      else s.(historyIndex := i)
    else s
  }

  /** `redo`: step the cursor forward when it is not at the last entry and
      restore that snapshot. */
  function Redo(s: GameState): (r: GameState)
    ensures s.historyIndex + 1 >= |s.history| ==> r == s
    ensures s.historyIndex + 1 < |s.history| ==>
              && r.historyIndex == s.historyIndex + 1
              && r.blocks == s.history[r.historyIndex]
              && r == s.(historyIndex := r.historyIndex, blocks := r.blocks)
    ensures Valid(s) ==> Valid(r)
  {
    if s.historyIndex < |s.history| - 1 then
      var i := s.historyIndex + 1;
      s.(historyIndex := i, blocks := s.history[i])
    else s
  }

  /** `clearBlocks`: empty the world and commit at once. The history is not
      reset: the redo entries are dropped and an empty snapshot appended. A
      commit scheduled by an earlier edit is left pending. */
  function ClearBlocks(s: GameState): (r: GameState)
    ensures r.blocks == []
    ensures Valid(s) ==> r.history == s.history[..s.historyIndex + 1] + [[]]
    ensures r.historyIndex == s.historyIndex + 1
    ensures |r.history| > 0 && r.history[|r.history| - 1] == []
    ensures r.(blocks := s.blocks, history := s.history, historyIndex := s.historyIndex) == s
    ensures Valid(s) ==> Valid(r) && r.history[r.historyIndex] == []
  {
    s.(blocks := [],
       history := Truncate(s.history, s.historyIndex + 1) + [[]],
       historyIndex := s.historyIndex + 1)
  }

  // ---------------------------------------------------------------------
  // Saved builds

  function BuildIdIs(id: Id): SavedBuild -> bool {
    (b: SavedBuild) => b.id == id
  }

  function BuildIdIsNot(id: Id): SavedBuild -> bool {
    (b: SavedBuild) => b.id != id
  }

  /** `savedBuilds.find(b => b.id === id)`. */
  function FindBuild(builds: seq<SavedBuild>, id: Id): (r: Option<SavedBuild>)
    ensures r.None? <==> forall b :: b in builds ==> b.id != id
    ensures r.Some? ==> r.value in builds && r.value.id == id
  {
    Find(builds, BuildIdIs(id))
  }

  /** `saveBuild`: append a copy of the live blocks under a fresh id. */
  function SaveBuild(s: GameState, name: string, id: Id): (r: GameState)
    ensures |r.savedBuilds| == |s.savedBuilds| + 1
    ensures r.savedBuilds[..|s.savedBuilds|] == s.savedBuilds
    ensures r.savedBuilds[|s.savedBuilds|] == SavedBuild(id, name, s.blocks)
    ensures r.(savedBuilds := s.savedBuilds) == s
  {
    s.(savedBuilds := s.savedBuilds + [SavedBuild(id, name, s.blocks)])
  }

  /** `loadBuild`: replace the blocks with the build's and restart the
      history from that single snapshot; an unknown id changes nothing. */
  function LoadBuild(s: GameState, id: Id): (r: GameState)
    ensures FindBuild(s.savedBuilds, id).None? ==> r == s
    ensures FindBuild(s.savedBuilds, id).Some? ==>
              var b := FindBuild(s.savedBuilds, id).value;
              && r.blocks == b.blocks
              && r.history == [b.blocks]
              && r.historyIndex == 0
              && r.(blocks := s.blocks, history := s.history, historyIndex := s.historyIndex) == s
    ensures Valid(s) ==> Valid(r)
  {
    match FindBuild(s.savedBuilds, id)
    case None => s
    case Some(b) => s.(blocks := b.blocks, history := [b.blocks], historyIndex := 0)
  }

  /** `deleteBuild`: drop every build carrying `id`. */
  function DeleteBuild(s: GameState, id: Id): (r: GameState)
    ensures forall b :: b in r.savedBuilds ==> b in s.savedBuilds && b.id != id
    ensures forall b :: b in s.savedBuilds && b.id != id ==> b in r.savedBuilds
    ensures FindBuild(s.savedBuilds, id).None? ==> r == s
    ensures FindBuild(r.savedBuilds, id).None?
    ensures r.(savedBuilds := s.savedBuilds) == s
  {
    s.(savedBuilds := Filter(s.savedBuilds, BuildIdIsNot(id)))
  }

  /** Why `exportBuild` throws: `btoa` rejects the JSON text of a build
      holding a character above U+00FF (in its name, say). */
  datatype ExportError = NotLatin1

  /** `exportBuild`: "" when the id is unknown, otherwise the encoded
      build. The encoder (`btoa(JSON.stringify(..))`) is a parameter that
      answers None where `btoa` throws; the exception is not caught, so
      the export fails. */
  function ExportBuild(s: GameState, id: Id, encode: SavedBuild -> Option<string>): (r: Result<string, ExportError>)
    ensures FindBuild(s.savedBuilds, id).None? ==> r == Success("")
    ensures FindBuild(s.savedBuilds, id).Some? ==>
              var b := FindBuild(s.savedBuilds, id).value;
              && (r.Failure? <==> encode(b).None?)
              && (r.Success? ==> r.value == encode(b).value)
  {
    match FindBuild(s.savedBuilds, id)
    case None => Success("")
    case Some(b) =>
      match encode(b)
      case None => Failure(NotLatin1)
      case Some(text) => Success(text)
  }

  /** `importBuild`: decode the data and append it as a new build with a
      fresh id; on a decode or parse failure (the caught exception) nothing
      changes. The decoder (`JSON.parse(atob(..))` followed by the field
      accesses that throw on malformed data) is a parameter. */
  function ImportBuild(s: GameState, data: string, decode: string -> Option<SavedBuild>, id: Id): (r: GameState)
    ensures decode(data).None? ==> r == s
    ensures decode(data).Some? ==>
              && |r.savedBuilds| == |s.savedBuilds| + 1
              && r.savedBuilds[..|s.savedBuilds|] == s.savedBuilds
              && r.savedBuilds[|s.savedBuilds|] == decode(data).value.(id := id)
    ensures r.(savedBuilds := s.savedBuilds) == s
  {
    match decode(data)
    case None => s
    case Some(b) => s.(savedBuilds := s.savedBuilds + [b.(id := id)])
  }

  // ---------------------------------------------------------------------
  // Selection, hover and theme

  function SetSelectedBlockType(s: GameState, t: BlockType): (r: GameState)
    ensures r.selectedBlockType == t && r.(selectedBlockType := s.selectedBlockType) == s
  {
    s.(selectedBlockType := t)
  }

  function SetSelectedColor(s: GameState, c: Color): (r: GameState)
    ensures r.selectedColor == c && r.(selectedColor := s.selectedColor) == s
  {
    s.(selectedColor := c)
  }

  /** `setHoveredBlock`, as the settled effect of one call: a request for
      the id already shown is skipped; any other id ends up hovered. The
      throttle timer behind it is modelled in HoverThrottle. */
  function SetHoveredBlock(s: GameState, id: Option<Id>): (r: GameState)
    ensures r.hoveredBlockId == id
    ensures r.(hoveredBlockId := s.hoveredBlockId) == s
    ensures s.hoveredBlockId == id ==> r == s
  {
    if s.hoveredBlockId == id then s else s.(hoveredBlockId := id)
  }

  /** `setHoveredFace`: skipped when unchanged, otherwise set at once. */
  function SetHoveredFace(s: GameState, index: Option<int>): (r: GameState)
    ensures r.hoveredFaceIndex == index
    ensures r.(hoveredFaceIndex := s.hoveredFaceIndex) == s
    ensures s.hoveredFaceIndex == index ==> r == s
  {
    if s.hoveredFaceIndex == index then s else s.(hoveredFaceIndex := index)
  }

  function Flip(t: Theme): Theme {
    if t == Dark then Light else Dark
  }

  /** `toggleTheme`. */
  function ToggleTheme(s: GameState): (r: GameState)
    ensures r.theme != s.theme
    ensures r.(theme := s.theme) == s
  {
    s.(theme := Flip(s.theme))
  }
}

=== FILE: geometry.dfy ===
/** World positions. The source works with floating-point `Vector3`s whose
    interesting values are all multiples of 0.25 (cell centres at n + 0.5,
    whole levels, the stair lift of 0.25), so a coordinate here is an integer
    count of quarter units: the world value v is represented by 4 * v. */
module Geometry {
  import opened Basics

  /** Quarter units per world unit, i.e. the side of one grid cell. */
  const Unit: int := 4

  datatype Vec = Vec(x: int, y: int, z: int)

  const Zero: Vec := Vec(0, 0, 0)

  function Add(a: Vec, b: Vec): Vec {
    Vec(a.x + b.x, a.y + b.y, a.z + b.z)
  }

  function Neg(a: Vec): Vec {
    Vec(-a.x, -a.y, -a.z)
  }

  /** The source's `Math.abs(a - b) < 0.1` on world values a/4 and b/4,
      cleared of fractions. On the quarter-unit lattice it is plain equality. */
  function Near(a: int, b: int): (r: bool)
    ensures r <==> a == b
  {
    10 * Abs(a - b) < 4
  }

  /** The source's `Math.abs(a - b) > 0.1`; on the lattice, inequality. */
  function Apart(a: int, b: int): (r: bool)
    ensures r <==> a != b
  {
    10 * Abs(a - b) > 4
  }

  /** Epsilon-equality of positions: every axis within 0.1. */
  function NearVec(a: Vec, b: Vec): (r: bool)
    ensures r <==> a == b
  {
    Near(a.x, b.x) && Near(a.y, b.y) && Near(a.z, b.z)
  }

  /** `Math.floor(v) + 0.5`: the centre of the unit cell containing v.
      Dafny's `/` by a positive divisor rounds down, as `Math.floor` does,
      also for negative v. */
  function Snap(v: int): (r: int)
    ensures r - Unit / 2 <= v < r + Unit / 2
    ensures r % Unit == Unit / 2
  {
    (v / Unit) * Unit + Unit / 2
  }

  /** The centre of a cell snaps to itself. */
  lemma SnapIdempotent(v: int)
    ensures Snap(Snap(v)) == Snap(v)
  {
    var c := Snap(v);
    assert c / Unit == v / Unit;
  }

  /** Two points snap to the same centre exactly when they lie in the same
      unit cell [4k, 4k + 4). */
  lemma SnapSameCell(a: int, b: int)
    ensures Snap(a) == Snap(b) <==> a / Unit == b / Unit
  {
  }
}

=== FILE: ground_placement.dfy ===
/** Ground-click placement of src/components/game/SoftCirclePlane.tsx: the
    column query, the "first gap scanning upward from level 0" stacking rule,
    and the position logic of `handleClick`. */
module GroundPlacement {
  import opened Basics
  import opened Seqs
  import opened Geometry
  import opened Blocks
  import opened GameStore
  import opened BlockPlugins

  // ---------------------------------------------------------------------
  // getBlocksInColumn

  /** The block stands in the column over (x, z), up to the 0.1 epsilon. */
  function InColumn(x: int, z: int): Block -> bool {
    (b: Block) => Near(b.position.x, x) && Near(b.position.z, z)
  }

  ghost predicate SortedByHeight(s: seq<Block>) {
    forall i, j :: 0 <= i < j < |s| ==> s[i].position.y <= s[j].position.y
  }

  /** Inserts b in front of the first entry that is not lower than it. */
  function InsertByHeight(b: Block, s: seq<Block>): (r: seq<Block>)
    requires SortedByHeight(s)
    ensures SortedByHeight(r)
    ensures multiset(r) == multiset(s) + multiset{b}
    ensures forall c :: c in r <==> c == b || c in s
    decreases |s|
  {
    if |s| == 0 then [b]
    else if b.position.y <= s[0].position.y then [b] + s
    else
      var rest := InsertByHeight(b, s[1..]);
      assert s == [s[0]] + s[1..];
      ConsSorted(s[0], rest);
      [s[0]] + rest
  }

  /** A block no higher than anything in a sorted column can head it. */
  lemma ConsSorted(a: Block, rest: seq<Block>)
    requires SortedByHeight(rest)
    requires forall c :: c in rest ==> a.position.y <= c.position.y
    ensures SortedByHeight([a] + rest)
  {
  }

  /** `.sort((a, b) => a.position.y - b.position.y)`, as an insertion
      sort. */
  function SortByHeight(s: seq<Block>): (r: seq<Block>)
    ensures SortedByHeight(r)
    ensures multiset(r) == multiset(s)
    ensures forall c :: c in r <==> c in s
    decreases |s|
  {
    if |s| == 0 then []
    else
      assert s == [s[0]] + s[1..];
      InsertByHeight(s[0], SortByHeight(s[1..]))
  }

  /** `getBlocksInColumn(x, z)`: the blocks standing over (x, z), lowest
      first, each exactly as often as in `blocks`. */
  function GetBlocksInColumn(blocks: seq<Block>, x: int, z: int): (r: seq<Block>)
    ensures SortedByHeight(r)
    ensures multiset(r) == multiset(Filter(blocks, InColumn(x, z)))
    ensures forall b :: b in r <==> b in blocks && b.position.x == x && b.position.z == z
  {
    SortByHeight(Filter(blocks, InColumn(x, z)))
  }

  // ---------------------------------------------------------------------
  // findLowestEmptyPosition

  /** The scan of `findLowestEmptyPosition` from `level`: stop at the first
      block that is not at the current level, otherwise go one level up. */
  function ScanFrom(column: seq<Block>, level: nat): (y: nat)
    ensures level <= y <= level + |column|
    decreases |column|
  {
    if |column| == 0 then level
    else if Apart(column[0].position.y, Unit * level) then level
    else ScanFrom(column[1..], level + 1)
  }

  /** The level (in whole units) a ground click in column (x, z) fills. */
  function LowestEmptyLevel(blocks: seq<Block>, x: int, z: int): (y: nat)
    ensures y <= |GetBlocksInColumn(blocks, x, z)|
    ensures |GetBlocksInColumn(blocks, x, z)| == 0 ==> y == 0
  {
    ScanFrom(GetBlocksInColumn(blocks, x, z), 0)
  }

  /** The loop of `findLowestEmptyPosition` as written. */
  method FindLowestEmptyPosition(blocks: seq<Block>, x: int, z: int) returns (y: nat)
    ensures y == LowestEmptyLevel(blocks, x, z)
    ensures y <= |GetBlocksInColumn(blocks, x, z)|
  {
    var column := GetBlocksInColumn(blocks, x, z);
    y := 0;
    var i := 0;
    while i < |column|
      invariant 0 <= i <= |column| && y == i
      invariant ScanFrom(column, 0) == ScanFrom(column[i..], y)
    {
      if Apart(column[i].position.y, Unit * y) {
        break;
      }
      assert column[i..][1..] == column[i + 1..];
      y := y + 1;
      i := i + 1;
    }
  }

  /** The column over (x, z) is tidy: its blocks stand on whole
      non-negative levels, and no two of them share a level. Nothing is
      asked of the other columns. */
  ghost predicate TidyColumn(blocks: seq<Block>, x: int, z: int) {
    var column := Filter(blocks, InColumn(x, z));
    && DistinctHeights(column)
    && OnLevels(column)
  }

  /** A world without shared cells and with every block on a whole
      non-negative level has every column tidy. */
  lemma TidyWorldTidyColumns(blocks: seq<Block>, x: int, z: int)
    requires NoOverlap(blocks) && OnLevels(blocks)
    ensures TidyColumn(blocks, x, z)
  {
    var column := Filter(blocks, InColumn(x, z));
    FilterKeepsNoOverlap(blocks, InColumn(x, z));
    SameColumnDistinctHeights(column, x, z);
  }

  /** Stacking result on a tidy column: the level found is free and every
      level below it is occupied. */
  lemma LowestEmptyLevelIsFirstGap(blocks: seq<Block>, x: int, z: int)
    requires TidyColumn(blocks, x, z)
    ensures var y := LowestEmptyLevel(blocks, x, z);
            && (forall b :: b in blocks ==> b.position != Vec(x, Unit * y, z))
            && (forall k :: 0 <= k < y ==> exists b :: b in blocks && b.position == Vec(x, Unit * k, z))
  {
    var column := GetBlocksInColumn(blocks, x, z);
    var filtered := Filter(blocks, InColumn(x, z));
    SortKeepsDistinctHeights(filtered);
    assert forall b :: b in column ==> b in filtered;
    ScanFindsGap(column, 0);
  }

  ghost predicate DistinctHeights(s: seq<Block>) {
    forall i, j :: 0 <= i < j < |s| ==> s[i].position.y != s[j].position.y
  }

  /** A strictly increasing column of whole levels, all at or above `level`:
      the scan stops at a free level with every level in between filled. */
  lemma {:induction false} ScanFindsGap(column: seq<Block>, level: nat)
    requires SortedByHeight(column) && DistinctHeights(column)
    requires forall b :: b in column ==> b.position.y >= Unit * level && b.position.y % Unit == 0
    ensures var y := ScanFrom(column, level);
            && (forall b :: b in column ==> b.position.y != Unit * y)
            && (forall k :: level <= k < y ==> exists b :: b in column && b.position.y == Unit * k)
    decreases |column|
  {
    if |column| > 0 {
      var h := column[0].position.y;
      HeadIsLowest(column);
      if h == Unit * level {
        var rest := column[1..];
        forall b | b in rest ensures b.position.y >= Unit * (level + 1) && b.position.y % Unit == 0 {
          NextLevel(b.position.y, level);
        }
        ScanFindsGap(rest, level + 1);
        assert column[0] in column;
        assert ScanFrom(column, level) == ScanFrom(rest, level + 1);
      }
    }
  }

  /** The head of a strictly increasing column is below every later entry,
      and the rest of the column is again strictly increasing. */
  lemma HeadIsLowest(column: seq<Block>)
    requires |column| > 0 && SortedByHeight(column) && DistinctHeights(column)
    ensures forall b :: b in column[1..] ==> b.position.y > column[0].position.y
    ensures forall b :: b in column ==> b.position.y >= column[0].position.y
    ensures SortedByHeight(column[1..]) && DistinctHeights(column[1..])
  {
    HeadBelowRest(column);
    assert forall b :: b in column ==> b == column[0] || b in column[1..] by {
      assert column == [column[0]] + column[1..];
    }
    RestIncreasing(column);
  }

  lemma HeadBelowRest(column: seq<Block>)
    requires |column| > 0 && SortedByHeight(column) && DistinctHeights(column)
    ensures forall b :: b in column[1..] ==> b.position.y > column[0].position.y
  {
    var rest := column[1..];
    forall b | b in rest ensures b.position.y > column[0].position.y {
      var k :| 0 <= k < |rest| && rest[k] == b;
      assert column[k + 1] == b;
    }
  }

  lemma RestIncreasing(column: seq<Block>)
    requires |column| > 0 && SortedByHeight(column) && DistinctHeights(column)
    ensures SortedByHeight(column[1..]) && DistinctHeights(column[1..])
  {
    var rest := column[1..];
    forall i, j | 0 <= i < j < |rest|
      ensures rest[i].position.y <= rest[j].position.y && rest[i].position.y != rest[j].position.y
    {
      assert rest[i] == column[i + 1] && rest[j] == column[j + 1];
    }
  }

  lemma NextLevel(a: int, level: nat)
    requires a % Unit == 0 && a > Unit * level
    ensures a >= Unit * (level + 1)
  {
    assert a == Unit * (a / Unit);
  }

  /** Blocks of one column in distinct cells stand at distinct heights. */
  lemma SameColumnDistinctHeights(s: seq<Block>, x: int, z: int)
    requires NoOverlap(s)
    requires forall b :: b in s ==> b.position.x == x && b.position.z == z
    ensures DistinctHeights(s)
  {
    forall i, j | 0 <= i < j < |s| ensures s[i].position.y != s[j].position.y {
      assert s[i] in s && s[j] in s;
    }
  }

  /** Putting a block of a new height in front keeps heights distinct. */
  lemma ConsKeepsDistinctHeights(x: Block, t: seq<Block>)
    requires DistinctHeights(t)
    requires forall c :: c in t ==> c.position.y != x.position.y
    ensures DistinctHeights([x] + t)
  {
    var r := [x] + t;
    forall i, j | 0 <= i < j < |r| ensures r[i].position.y != r[j].position.y {
      assert r[j] == t[j - 1];
      if i == 0 {
        assert r[j] in t;
      } else {
        assert r[i] == t[i - 1];
      }
    }
  }

  /** The entries after the head of a sequence of distinct heights avoid the
      head's height and are distinct among themselves. */
  lemma TailDistinctHeights(s: seq<Block>)
    requires |s| > 0 && DistinctHeights(s)
    ensures DistinctHeights(s[1..])
    ensures forall c :: c in s[1..] ==> c.position.y != s[0].position.y
  {
    var tail := s[1..];
    forall c | c in tail ensures c.position.y != s[0].position.y {
      var k :| 0 <= k < |tail| && tail[k] == c;
      assert s[k + 1] == c;
    }
    forall i, j | 0 <= i < j < |tail| ensures tail[i].position.y != tail[j].position.y {
      assert tail[i] == s[i + 1] && tail[j] == s[j + 1];
    }
  }

  lemma {:induction false} InsertKeepsDistinctHeights(b: Block, s: seq<Block>)
    requires SortedByHeight(s) && DistinctHeights(s)
    requires forall c :: c in s ==> c.position.y != b.position.y
    ensures DistinctHeights(InsertByHeight(b, s))
    decreases |s|
  {
    if |s| == 0 {
      assert InsertByHeight(b, s) == [b];
    } else if b.position.y <= s[0].position.y {
      assert InsertByHeight(b, s) == [b] + s;
      ConsKeepsDistinctHeights(b, s);
    } else {
      var tail := s[1..];
      assert SortedByHeight(tail) by {
        forall i, j | 0 <= i < j < |tail| ensures tail[i].position.y <= tail[j].position.y {
          assert tail[i] == s[i + 1] && tail[j] == s[j + 1];
        }
      }
      TailDistinctHeights(s);
      assert forall c :: c in tail ==> c in s;
      InsertKeepsDistinctHeights(b, tail);
      var rest := InsertByHeight(b, tail);
      assert InsertByHeight(b, s) == [s[0]] + rest;
      assert s[0].position.y != b.position.y;
      ConsKeepsDistinctHeights(s[0], rest);
    }
  }

  lemma {:induction false} SortKeepsDistinctHeights(s: seq<Block>)
    requires DistinctHeights(s)
    ensures DistinctHeights(SortByHeight(s))
    decreases |s|
  {
    if |s| > 0 {
      var tail := s[1..];
      TailDistinctHeights(s);
      SortKeepsDistinctHeights(tail);
      InsertKeepsDistinctHeights(s[0], SortByHeight(tail));
    }
  }

  /** With two blocks at level 0 of the same column (two entries in one cell,
      as an imported build may hold), the scan answers level 1
      although level 1 is occupied: the tidy-column hypothesis above is
      needed. */
  lemma DuplicateCellDefeatsScan(a: Block, b: Block, c: Block, x: int, z: int)
    requires a.position == Vec(x, 0, z) && b.position == Vec(x, 0, z)
    requires c.position == Vec(x, Unit, z)
    ensures LowestEmptyLevel([a, b, c], x, z) == 1
    ensures c in [a, b, c] && c.position == Vec(x, Unit * 1, z)
  {
    var s := [a, b, c];
    assert forall i :: 0 <= i < |s| ==> InColumn(x, z)(s[i]);
    assert Filter(s, InColumn(x, z)) == s;
    assert s[1..] == [b, c] && s[1..][1..] == [c] && [c][1..] == [];
    assert SortByHeight([c]) == [c];
    InsertInFront(b, [c]);
    assert SortByHeight([b, c]) == [b, c];
    InsertInFront(a, [b, c]);
    assert SortByHeight(s) == s;
    assert ScanFrom(s, 0) == ScanFrom([b, c], 1) == 1;
  }

  lemma InsertInFront(b: Block, s: seq<Block>)
    requires SortedByHeight(s) && |s| > 0 && b.position.y <= s[0].position.y
    ensures InsertByHeight(b, s) == [b] + s
  {
  }

  // ---------------------------------------------------------------------
  // handleClick

  /** A click on the ground plane: the world-space hit point and the hit
      face's normal, if the event reports one. */
  datatype ClickEvent = ClickEvent(point: Vec, face: Option<Vec>)

  /** The block of `blocks.find(..)` in the face branch: first one in the
      snapped column at the hit point's height. */
  function ClickedBlock(blocks: seq<Block>, gridX: int, gridZ: int, pointY: int): (r: Option<Block>)
    ensures r.None? <==> forall b :: b in blocks ==> b.position != Vec(gridX, pointY, gridZ)
    ensures r.Some? ==> r.value in blocks && r.value.position == Vec(gridX, pointY, gridZ)
  {
    Find(blocks, (b: Block) =>
      Near(b.position.x, gridX) && Near(b.position.z, gridZ) && Near(b.position.y, pointY))
  }

  /** Where `handleClick` puts the new block. */
  function ClickPosition(blocks: seq<Block>, ev: ClickEvent): (r: Vec)
    ensures r.x == Snap(ev.point.x) && r.z == Snap(ev.point.z)
    ensures var clicked := ClickedBlock(blocks, r.x, r.z, ev.point.y);
            ev.face.Some? && clicked.Some? ==> r.y == clicked.value.position.y + Unit
    ensures var clicked := ClickedBlock(blocks, r.x, r.z, ev.point.y);
            ev.face.None? || clicked.None? ==> r.y == Unit * LowestEmptyLevel(blocks, r.x, r.z)
  {
    var gridX := Snap(ev.point.x);
    var gridZ := Snap(ev.point.z);
    var clicked := if ev.face.Some? then ClickedBlock(blocks, gridX, gridZ, ev.point.y) else None;
    match clicked
    case Some(c) => Vec(gridX, c.position.y + Unit, gridZ)
    case None => Vec(gridX, Unit * LowestEmptyLevel(blocks, gridX, gridZ), gridZ)
  }

  /** `handleClick`: nothing while a drag is in progress, otherwise exactly
      one `addBlock` of the selected type and colour at `ClickPosition`. */
  function HandleClick(s: GameState, isDragging: bool, ev: ClickEvent, id: Id): (r: GameState)
    ensures isDragging ==> r == s
    ensures !isDragging ==>
              && |r.blocks| == |s.blocks| + 1
              && r.blocks[..|s.blocks|] == s.blocks
              && r.blocks[|s.blocks|] ==
                   Block(id, ClickPosition(s.blocks, ev), s.selectedBlockType, s.selectedColor)
              && r == AddBlock(s, BlockPayload(ClickPosition(s.blocks, ev), s.selectedBlockType, s.selectedColor), id)
  {
    if isDragging then s
    else AddBlock(s, BlockPayload(ClickPosition(s.blocks, ev), s.selectedBlockType, s.selectedColor), id)
  }

  /** Every block placed by a click stands at the centre of the unit cell,
      in x and z, that contains the hit point. */
  lemma ClickLandsOnCellCentre(s: GameState, ev: ClickEvent, id: Id)
    ensures var r := HandleClick(s, false, ev, id);
            var p := r.blocks[|s.blocks|].position;
            && p.x % Unit == Unit / 2 && p.x - Unit / 2 <= ev.point.x < p.x + Unit / 2
            && p.z % Unit == Unit / 2 && p.z - Unit / 2 <= ev.point.z < p.z + Unit / 2
  {
  }

  /** Every click the ground plane delivers hits the plane's surface at
      height -0.5, whatever face it reports. */
  predicate OnPlane(ev: ClickEvent) {
    ev.point.y == -Unit / 2
  }

  /** A click on the ground plane in a tidy world (whole non-negative
      levels, distinct cells) lands in a free cell and keeps the world
      tidy, whatever face the event reports. */
  lemma GroundClickKeepsWorldTidy(s: GameState, ev: ClickEvent, id: Id)
    requires NoOverlap(s.blocks) && OnLevels(s.blocks)
    requires OnPlane(ev)
    ensures var r := HandleClick(s, false, ev, id);
            && (forall b :: b in s.blocks ==> b.position != r.blocks[|s.blocks|].position)
            && NoOverlap(r.blocks) && OnLevels(r.blocks)
  {
    var pos := ClickPosition(s.blocks, ev);
    TidyWorldTidyColumns(s.blocks, Snap(ev.point.x), Snap(ev.point.z));
    GroundClickCellIsFree(s.blocks, ev);
    var nb := Block(id, pos, s.selectedBlockType, s.selectedColor);
    var r := HandleClick(s, false, ev, id);
    assert r.blocks == s.blocks + [nb];
    CanPlaceKeepsNoOverlap(s.blocks, nb);
    AppendKeepsOnLevels(s.blocks, nb);
  }

  /** The cell a ground-plane click picks in a tidy column is free and on
      a whole non-negative level: no block of the column stands at the
      plane's height, so the face branch finds nothing and the column rule
      decides. */
  lemma GroundClickCellIsFree(blocks: seq<Block>, ev: ClickEvent)
    requires OnPlane(ev)
    requires TidyColumn(blocks, Snap(ev.point.x), Snap(ev.point.z))
    ensures var pos := ClickPosition(blocks, ev);
            CanPlace(pos, blocks) && pos.y >= 0 && pos.y % Unit == 0
  {
    var gx, gz := Snap(ev.point.x), Snap(ev.point.z);
    assert ClickedBlock(blocks, gx, gz, ev.point.y).None? by {
      forall b | b in blocks ensures b.position != Vec(gx, ev.point.y, gz) {
        if b.position.x == gx && b.position.z == gz {
          assert b in Filter(blocks, InColumn(gx, gz));
        }
      }
    }
    var y := LowestEmptyLevel(blocks, gx, gz);
    LowestEmptyLevelIsFirstGap(blocks, gx, gz);
    var pos := ClickPosition(blocks, ev);
    assert pos == Vec(gx, Unit * y, gz);
    assert forall b :: b in blocks ==> b.position != pos;
    assert CanPlace(pos, blocks);
    WholeLevel(y);
  }

  lemma WholeLevel(y: nat)
    ensures Unit * y >= 0 && (Unit * y) % Unit == 0
  {
  }

  lemma AppendKeepsOnLevels(blocks: seq<Block>, b: Block)
    requires OnLevels(blocks) && OnLevels([b])
    ensures OnLevels(blocks + [b])
  {
    assert forall c :: c in blocks + [b] ==> c in blocks || c == b;
  }

  /** The face branch does not check occupancy: on an event reporting a
      face hit at the centre height of the lower of two stacked blocks, a
      third block goes into the upper one's cell. The ground plane's own
      clicks are at height -0.5 and never take this branch in a tidy world
      (`GroundClickKeepsWorldTidy`); only a caller supplying such events
      reaches it. */
  lemma FaceClickCanOverlap()
    ensures var lower := Block("a", Vec(2, 0, 2), Cube, "#fff");
            var upper := Block("b", Vec(2, Unit, 2), Cube, "#fff");
            var s := Initial.(blocks := [lower, upper]);
            var r := HandleClick(s, false, ClickEvent(Vec(2, 0, 2), Some(Vec(0, Unit, 0))), "c");
            NoOverlap(s.blocks) && !NoOverlap(r.blocks)
  {
    var lower := Block("a", Vec(2, 0, 2), Cube, "#fff");
    var upper := Block("b", Vec(2, Unit, 2), Cube, "#fff");
    var s := Initial.(blocks := [lower, upper]);
    var ev := ClickEvent(Vec(2, 0, 2), Some(Vec(0, Unit, 0)));
    assert ClickedBlock(s.blocks, 2, 2, 0) == Some(lower);
    var r := HandleClick(s, false, ev, "c");
    assert r.blocks[1].position == r.blocks[2].position;
  }

  /** A plane click can fill an occupied cell once the world holds a block
      centred at the plane's height -0.5, as an imported build may: the
      face branch matches that block and stacks onto the cell above it,
      which is already taken. */
  lemma PlaneClickOverlapsAfterImport()
    ensures var lower := Block("a", Vec(2, -Unit / 2, 2), Cube, "#fff");
            var upper := Block("b", Vec(2, Unit / 2, 2), Cube, "#fff");
            var s := Initial.(blocks := [lower, upper]);
            var ev := ClickEvent(Vec(2, -Unit / 2, 2), Some(Vec(0, Unit, 0)));
            var r := HandleClick(s, false, ev, "c");
            OnPlane(ev) && NoOverlap(s.blocks) && !NoOverlap(r.blocks)
  {
    var lower := Block("a", Vec(2, -Unit / 2, 2), Cube, "#fff");
    var upper := Block("b", Vec(2, Unit / 2, 2), Cube, "#fff");
    var s := Initial.(blocks := [lower, upper]);
    var ev := ClickEvent(Vec(2, -Unit / 2, 2), Some(Vec(0, Unit, 0)));
    assert ClickedBlock(s.blocks, 2, 2, -Unit / 2) == Some(lower);
    var r := HandleClick(s, false, ev, "c");
    assert r.blocks[1].position == r.blocks[2].position;
  }
}

=== FILE: hover_throttle.dfy ===
/** The throttle behind `setHoveredBlock` (src/store/gameState.ts): a
    `pendingHoverUpdates` flag and one timer. The timer callback applies the
    id it was scheduled with; requests arriving while it is pending write
    their id at once. */
module HoverThrottle {
  import opened Basics

  /** `hovered` is `hoveredBlockId`; `timer` holds the id the scheduled
      callback will apply, when one is scheduled. */
  datatype HoverState = HoverState(hovered: Option<Id>, pending: bool, timer: Option<Option<Id>>)

  const Idle: HoverState := HoverState(None, false, None)

  /** A timer is scheduled exactly while the pending flag is set. */
  ghost predicate Consistent(h: HoverState) {
    h.pending <==> h.timer.Some?
  }

  /** The timer fires and applies its captured id. */
  function TimerFires(h: HoverState): (r: HoverState)
    ensures !r.pending && r.timer.None?
    ensures h.timer.Some? ==> r.hovered == h.timer.value
    ensures h.timer.None? ==> r.hovered == h.hovered
  {
    match h.timer
    case None => HoverState(h.hovered, false, None)
    case Some(t) => HoverState(t, false, None)
  }

  /** `setHoveredBlock` as written: skip an unchanged id; while pending,
      overwrite the shown id; otherwise schedule a callback capturing `id`. */
  function RequestAsWritten(h: HoverState, id: Option<Id>): (r: HoverState)
    ensures Consistent(h) ==> Consistent(r)
    ensures h.hovered == id ==> r == h
    ensures h.hovered != id && h.pending ==> r.hovered == id && r.timer == h.timer
    ensures h.hovered != id && !h.pending ==> r.pending && r.timer == Some(id) && r.hovered == h.hovered
  {
    if h.hovered == id then h
    else if h.pending then h.(hovered := id)
    else HoverState(h.hovered, true, Some(id))
  }

  /** Two different requests inside one throttle window: the second is shown
      briefly, then the timer puts back the first. The latest request does
      not win. */
  lemma AsWrittenLatestRequestLost(h: HoverState, a: Option<Id>, b: Option<Id>)
    requires Consistent(h) && !h.pending
    requires h.hovered != a && a != b
    ensures var t := TimerFires(RequestAsWritten(RequestAsWritten(h, a), b));
            t.hovered == a && t.hovered != b
  {
  }

  /** The intended throttle: a request during the window also retargets the
      scheduled callback, and an unchanged id is skipped only when nothing
      is pending. */
  function Request(h: HoverState, id: Option<Id>): (r: HoverState)
    ensures Consistent(h) ==> Consistent(r)
    ensures !h.pending && h.hovered == id ==> r == h
    ensures h.pending ==> r.hovered == id && r.timer == Some(id)
    ensures !h.pending && h.hovered != id ==> r.pending && r.timer == Some(id) && r.hovered == h.hovered
  {
    if !h.pending && h.hovered == id then h
    else if h.pending then h.(hovered := id, timer := Some(id))
    else HoverState(h.hovered, true, Some(id))
  }

  function Requests(h: HoverState, ids: seq<Option<Id>>): HoverState
    decreases |ids|
  {
    if |ids| == 0 then h else Requests(Request(h, ids[0]), ids[1..])
  }

  /** After the last request of a burst the state will settle on it. */
  ghost predicate SettlesOn(h: HoverState, id: Option<Id>) {
    Consistent(h) && (if h.pending then h.timer == Some(id) else h.hovered == id)
  }

  lemma {:induction false} RequestsSettleOnLast(h: HoverState, ids: seq<Option<Id>>)
    requires Consistent(h) && |ids| > 0
    ensures SettlesOn(Requests(h, ids), ids[|ids| - 1])
    decreases |ids|
  {
    if |ids| > 1 {
      RequestsSettleOnLast(Request(h, ids[0]), ids[1..]);
      assert ids[1..][|ids[1..]| - 1] == ids[|ids| - 1];
    }
  }

  /** With the intended throttle, any burst of requests followed by the
      timer firing leaves the latest requested id hovered. */
  lemma LatestRequestWins(h: HoverState, ids: seq<Option<Id>>)
    requires Consistent(h) && |ids| > 0
    ensures TimerFires(Requests(h, ids)).hovered == ids[|ids| - 1]
    ensures !TimerFires(Requests(h, ids)).pending
  {
    RequestsSettleOnLast(h, ids);
  }
}

=== FILE: interaction.dfy ===
/** How the pieces meet on the ground plane: the drag detector gates
    `handleClick`, and the concrete placements the system is meant to make. */
module Interaction {
  import opened Basics
  import opened Geometry
  import opened Blocks
  import opened BlockPlugins
  import opened GameStore
  import opened GroundPlacement
  import opened DragDetection

  /** The drag state the click handler sees after press, moves and release. */
  function AfterGesture(d: DragState, start: PointerPos, moves: seq<PointerPos>): DragState {
    PointerUp(Moves(PointerDown(d, start), moves))
  }

  /** A click ending a gesture that moved beyond the threshold adds nothing. */
  lemma DraggedClickAddsNothing(s: GameState, d: DragState, start: PointerPos,
                                moves: seq<PointerPos>, ev: ClickEvent, id: Id)
    requires exists i :: 0 <= i < |moves| && BeyondThreshold(start, moves[i])
    ensures HandleClick(s, AfterGesture(d, start, moves).isDragging, ev, id) == s
  {
    GestureIsDragIffFarMove(d, start, moves);
  }

  /** A click ending a gesture that stayed within the threshold adds exactly
      one block, of the selected type and colour. */
  lemma TapAddsOneBlock(s: GameState, d: DragState, start: PointerPos,
                        moves: seq<PointerPos>, ev: ClickEvent, id: Id)
    requires forall i :: 0 <= i < |moves| ==> !BeyondThreshold(start, moves[i])
    ensures var r := HandleClick(s, AfterGesture(d, start, moves).isDragging, ev, id);
            && |r.blocks| == |s.blocks| + 1
            && r.blocks[..|s.blocks|] == s.blocks
            && r.blocks[|s.blocks|].kind == s.selectedBlockType
            && r.blocks[|s.blocks|].color == s.selectedColor
  {
    GestureIsDragIffFarMove(d, start, moves);
  }

  /** Clicking the empty ground at (2.25, -0.5, 2.25) puts a blue cube at
      (2.5, 0, 2.5). */
  lemma GroundClickScenario(id: Id)
    ensures var s := SetSelectedColor(Initial, "#0000ff");
            var r := HandleClick(s, false, ClickEvent(Vec(9, -2, 9), None), id);
            r.blocks == [Block(id, Vec(10, 0, 10), Cube, "#0000ff")]
  {
    var s := SetSelectedColor(Initial, "#0000ff");
    assert GetBlocksInColumn([], 10, 10) == [];
    assert ClickPosition([], ClickEvent(Vec(9, -2, 9), None)) == Vec(10, 0, 10);
  }

  /** The face branch of `handleClick` on a synthetic event: a face hit
      reported at the centre height of a cube at (1.5, 0, 1.5) gets the new
      block at (1.5, 1, 1.5), the same cell the cube policy gives for the
      top face's offset. The ground plane itself never reports such a hit:
      its clicks are at height -0.5 (`GroundPlacement.OnPlane`). */
  lemma TopFaceScenario(s: GameState, cube: Block, id: Id)
    requires s.blocks == [cube] && cube.position == Vec(6, 0, 6)
    ensures ClickPosition(s.blocks, ClickEvent(Vec(6, 0, 6), Some(Vec(0, Unit, 0)))) == Vec(6, Unit, 6)
    ensures CubePlacementPosition(cube.position, PlacementOffset(Ordinal(Top))) == Vec(6, Unit, 6)
  {
    assert Snap(6) == 6;
    var clicked := ClickedBlock(s.blocks, 6, 6, 0);
    assert cube in s.blocks;
    assert clicked.value == cube;
    assert Ordinal(Top) == 2;
  }
}

=== FILE: registry.dfy ===
/** `BlockPluginRegistry` (src/plugins/blocks/registry.ts): a `Map` from a
    plugin's type tag to the plugin. A JavaScript `Map` iterates in insertion
    order, so it is modelled as the sequence of plugins in the order they
    were registered. */
module Registry {
  import opened Basics
  import opened Seqs
  import opened BlockPlugins

  datatype BlockPluginRegistry = BlockPluginRegistry(plugins: seq<Plugin>)

  datatype RegistryError = AlreadyRegistered(kind: string)

  const EmptyRegistry: BlockPluginRegistry := BlockPluginRegistry([])

  /** No type tag is registered twice. */
  ghost predicate Valid(r: BlockPluginRegistry) {
    forall i, j :: 0 <= i < j < |r.plugins| ==> r.plugins[i].kind != r.plugins[j].kind
  }

  function HasKind(t: string): Plugin -> bool {
    (p: Plugin) => p.kind == t
  }

  /** `plugins.has(type)`. */
  function Has(r: BlockPluginRegistry, t: string): (b: bool)
    ensures b <==> exists i :: 0 <= i < |r.plugins| && r.plugins[i].kind == t
  {
    FirstIndex(r.plugins, HasKind(t)).Some?
  }

  /** `register`: throws when the tag is already present, otherwise appends. */
  function Register(r: BlockPluginRegistry, p: Plugin): (res: Result<BlockPluginRegistry, RegistryError>)
    ensures res.Failure? <==> exists i :: 0 <= i < |r.plugins| && r.plugins[i].kind == p.kind
    ensures res.Failure? ==> res.error == AlreadyRegistered(p.kind)
    ensures res.Success? ==> res.value.plugins == r.plugins + [p]
    ensures Valid(r) && res.Success? ==> Valid(res.value)
  {
    if Has(r, p.kind) then Failure(AlreadyRegistered(p.kind))
    else Success(BlockPluginRegistry(r.plugins + [p]))
  }

  /** `get`: the plugin registered under `t`, or None (`undefined`). */
  function Get(r: BlockPluginRegistry, t: string): (res: Option<Plugin>)
    ensures res.None? <==> t !in GetTypes(r)
    ensures res.Some? ==> res.value in r.plugins && res.value.kind == t
  {
    Find(r.plugins, HasKind(t))
  }

  /** `getAll`: every registered plugin once, in registration order. Each
      of them is what `get` returns for its own tag. */
  function GetAll(r: BlockPluginRegistry): (ps: seq<Plugin>)
    ensures |ps| == |r.plugins| && forall i :: 0 <= i < |ps| ==> ps[i] == r.plugins[i]
    ensures Valid(r) ==> forall i :: 0 <= i < |ps| ==> Get(r, ps[i].kind) == Some(ps[i])
  {
    GetFindsEach(r);
    r.plugins
  }

  lemma GetFindsEach(r: BlockPluginRegistry)
    ensures Valid(r) ==> forall i :: 0 <= i < |r.plugins| ==> Get(r, r.plugins[i].kind) == Some(r.plugins[i])
  {
    if Valid(r) {
      forall i | 0 <= i < |r.plugins| ensures Get(r, r.plugins[i].kind) == Some(r.plugins[i]) {
        var g := Get(r, r.plugins[i].kind);
        assert r.plugins[i] in r.plugins;
        assert g.Some?;
        var j :| 0 <= j < |r.plugins| && r.plugins[j] == g.value;
        assert j == i;
      }
    }
  }

  /** `getTypes`: the key of each entry of `getAll`, in the same order. */
  function GetTypes(r: BlockPluginRegistry): (ts: seq<string>)
    ensures |ts| == |r.plugins|
    ensures forall i :: 0 <= i < |ts| ==> ts[i] == r.plugins[i].kind
    ensures Valid(r) ==> forall i, j :: 0 <= i < j < |ts| ==> ts[i] != ts[j]
  {
    seq(|r.plugins|, i requires 0 <= i < |r.plugins| => r.plugins[i].kind)
  }

  /** After a successful registration `get` finds the new plugin under its
      tag, and every other tag resolves as before. */
  lemma RegisterThenGet(r: BlockPluginRegistry, p: Plugin, t: string)
    requires Register(r, p).Success?
    ensures Get(Register(r, p).value, p.kind) == Some(p)
    ensures t != p.kind ==> Get(Register(r, p).value, t) == Get(r, t)
  {
    var r' := Register(r, p).value;
    FindAppend(r.plugins, [p], HasKind(p.kind));
    FindAppend(r.plugins, [p], HasKind(t));
  }

  /** A sequence of `register` calls, each made by a caller that catches the
      error, so a rejected call leaves the registry as it was. Returns the
      final registry and the number of calls that succeeded. */
  function RegisterEach(r: BlockPluginRegistry, ps: seq<Plugin>): (BlockPluginRegistry, nat)
    decreases |ps|
  {
    if |ps| == 0 then (r, 0)
    else
      match Register(r, ps[0])
      case Success(r') =>
        var (f, n) := RegisterEach(r', ps[1..]);
        (f, n + 1)
      case Failure(_) => RegisterEach(r, ps[1..])
  }

  /** `getAll` grows by exactly the successful registrations: every earlier
      plugin stays in place and the total is the number of successes. */
  lemma {:induction false} RegisterEachCounts(r: BlockPluginRegistry, ps: seq<Plugin>)
    requires Valid(r)
    ensures var (f, n) := RegisterEach(r, ps);
            && |GetAll(f)| == |GetAll(r)| + n
            && GetAll(f)[..|GetAll(r)|] == GetAll(r)
            && Valid(f)
            && n <= |ps|
    decreases |ps|
  {
    if |ps| > 0 {
      match Register(r, ps[0])
      case Success(r') =>
        RegisterEachCounts(r', ps[1..]);
        var (f, n) := RegisterEach(r', ps[1..]);
        assert GetAll(f)[..|GetAll(r)|] == GetAll(f)[..|GetAll(r')|][..|GetAll(r)|];
      case Failure(_) =>
        RegisterEachCounts(r, ps[1..]);
    }
  }

  /** Registering plugins whose tags are distinct and new succeeds for
      each of them, and `getAll` then lists them after the earlier ones in
      the order they were registered. */
  lemma {:induction false} RegisterEachListsAll(r: BlockPluginRegistry, ps: seq<Plugin>)
    requires forall i, j :: 0 <= i < j < |ps| ==> ps[i].kind != ps[j].kind
    requires forall i :: 0 <= i < |ps| ==> !Has(r, ps[i].kind)
    ensures RegisterEach(r, ps) == (BlockPluginRegistry(GetAll(r) + ps), |ps|)
    decreases |ps|
  {
    if |ps| == 0 {
      assert GetAll(r) + ps == r.plugins;
    } else {
      var r' := BlockPluginRegistry(r.plugins + [ps[0]]);
      var rest := ps[1..];
      assert Register(r, ps[0]) == Success(r');
      NewTagsStayNew(r, ps);
      RegisterEachListsAll(r', rest);
      var (f, n) := RegisterEach(r', rest);
      assert RegisterEach(r, ps) == (f, n + 1);
      assert r.plugins + [ps[0]] + rest == r.plugins + ps;
    }
  }

  /** After registering the first of several distinct new tags, the others
      are still new. */
  lemma NewTagsStayNew(r: BlockPluginRegistry, ps: seq<Plugin>)
    requires |ps| > 0
    requires forall i, j :: 0 <= i < j < |ps| ==> ps[i].kind != ps[j].kind
    requires forall i :: 0 <= i < |ps| ==> !Has(r, ps[i].kind)
    ensures var r' := BlockPluginRegistry(r.plugins + [ps[0]]);
            forall i :: 0 <= i < |ps[1..]| ==> !Has(r', ps[1..][i].kind)
  {
    var r' := BlockPluginRegistry(r.plugins + [ps[0]]);
    forall i | 0 <= i < |ps[1..]| ensures !Has(r', ps[1..][i].kind) {
      var t := ps[i + 1].kind;
      assert ps[1..][i] == ps[i + 1];
      assert !Has(r, t);
      assert t != ps[0].kind;
      forall k | 0 <= k < |r'.plugins| ensures r'.plugins[k].kind != t {
        if k < |r.plugins| {
          assert r'.plugins[k] == r.plugins[k];
        }
      }
    }
  }

  /** The default wiring registers the cube and the stair plugin. */
  lemma DefaultRegistration()
    ensures Register(EmptyRegistry, CubeBlockPlugin).Success?
    ensures var r := Register(EmptyRegistry, CubeBlockPlugin).value;
            Register(r, StairBlockPlugin).Success? &&
            GetTypes(Register(r, StairBlockPlugin).value) == ["cube", "stair"]
  {
  }
}

=== FILE: seqs.dfy ===
/** The two array operations the store relies on, `Array.prototype.filter`
    and `Array.prototype.find`, as functions on sequences. */
module Seqs {
  import opened Basics

  /** Keeps, in order, the elements that satisfy `keep`. */
  function Filter<T>(s: seq<T>, keep: T -> bool): (r: seq<T>)
    ensures |r| <= |s|
    ensures forall x :: x in r ==> x in s && keep(x)
    ensures forall x :: x in s && keep(x) ==> x in r
    ensures forall i :: 0 <= i < |r| ==> keep(r[i])
    ensures (forall i :: 0 <= i < |s| ==> keep(s[i])) ==> r == s
  {
    if |s| == 0 then []
    else
      var rest := Filter(s[1..], keep);
      assert s == [s[0]] + s[1..];
      if keep(s[0]) then [s[0]] + rest else rest
  }

  /** Filtering commutes with concatenation, so the kept elements stay in
      their original relative order. */
  lemma {:induction false} FilterAppend<T>(a: seq<T>, b: seq<T>, keep: T -> bool)
    ensures Filter(a + b, keep) == Filter(a, keep) + Filter(b, keep)
  {
    if |a| == 0 {
      assert a + b == b;
    } else {
      assert (a + b)[0] == a[0];
      assert (a + b)[1..] == a[1..] + b;
      FilterAppend(a[1..], b, keep);
    }
  }

  /** Index of the first element satisfying `p`, if any. */
  function FirstIndex<T>(s: seq<T>, p: T -> bool): (r: Option<nat>)
    ensures r.None? <==> forall i :: 0 <= i < |s| ==> !p(s[i])
    ensures r.Some? ==> r.value < |s| && p(s[r.value])
    ensures r.Some? ==> forall j :: 0 <= j < r.value ==> !p(s[j])
  {
    if |s| == 0 then None
    else if p(s[0]) then Some(0)
    else
      match FirstIndex(s[1..], p)
      case None => None
      case Some(i) => Some(i + 1)
  }

  /** The first element satisfying `p`, or None (`undefined` in the source). */
  function Find<T>(s: seq<T>, p: T -> bool): (r: Option<T>)
    ensures r.None? <==> forall x :: x in s ==> !p(x)
    ensures r.Some? ==> r.value in s && p(r.value)
    ensures |s| > 0 && p(s[0]) ==> r == Some(s[0])
  {
    match FirstIndex(s, p)
    case None => None
    case Some(i) => Some(s[i])
  }

  /** Appending cannot change a match already found in the prefix, and
      otherwise the search continues into the appended part. */
  lemma {:induction false} FindAppend<T>(a: seq<T>, b: seq<T>, p: T -> bool)
    ensures Find(a + b, p) == if Find(a, p).Some? then Find(a, p) else Find(b, p)
  {
    if |a| == 0 {
      assert a + b == b;
    } else {
      assert (a + b)[0] == a[0];
      assert (a + b)[1..] == a[1..] + b;
      FindAppend(a[1..], b, p);
      if !p(a[0]) {
        FindSkipsHead(a, p);
        FindSkipsHead(a + b, p);
      }
    }
  }

  lemma FindSkipsHead<T>(s: seq<T>, p: T -> bool)
    requires |s| > 0 && !p(s[0])
    ensures Find(s, p) == Find(s[1..], p)
  {
  }
}

=== FILE: store_properties.dfy ===
/** Properties of the store that relate several actions: the history
    invariant, the debounce, undo/redo round trips, and the saved-build
    round trips. */
module StoreProperties {
  import opened Basics
  import opened Seqs
  import opened Blocks
  import opened GameStore

  /** Every transition of the store, with the fresh ids it consumes. */
  datatype Action =
    | AddBlockAction(payload: BlockPayload, id: Id)
    | RemoveBlockAction(id: Id)
    | HistoryTimerFires
    | UndoAction
    | RedoAction
    | ClearBlocksAction
    | SaveBuildAction(name: string, id: Id)
    | LoadBuildAction(id: Id)
    | DeleteBuildAction(id: Id)
    | ImportBuildAction(data: string, id: Id)
    | SelectBlockTypeAction(t: BlockType)
    | SelectColorAction(c: Color)
    | HoverBlockAction(hovered: Option<Id>)
    | HoverFaceAction(face: Option<int>)
    | ToggleThemeAction

  function Step(s: GameState, a: Action, decode: string -> Option<SavedBuild>): GameState {
    match a
    case AddBlockAction(p, id) => AddBlock(s, p, id)
    case RemoveBlockAction(id) => RemoveBlock(s, id)
    case HistoryTimerFires => FireHistoryTimer(s)
    case UndoAction => Undo(s)
    case RedoAction => Redo(s)
    case ClearBlocksAction => ClearBlocks(s)
    case SaveBuildAction(name, id) => SaveBuild(s, name, id)
    case LoadBuildAction(id) => LoadBuild(s, id)
    case DeleteBuildAction(id) => DeleteBuild(s, id)
    case ImportBuildAction(data, id) => ImportBuild(s, data, decode, id)
    case SelectBlockTypeAction(t) => SetSelectedBlockType(s, t)
    case SelectColorAction(c) => SetSelectedColor(s, c)
    case HoverBlockAction(h) => SetHoveredBlock(s, h)
    case HoverFaceAction(f) => SetHoveredFace(s, f)
    case ToggleThemeAction => ToggleTheme(s)
  }

  function Run(s: GameState, actions: seq<Action>, decode: string -> Option<SavedBuild>): GameState
    decreases |actions|
  {
    if |actions| == 0 then s else Run(Step(s, actions[0], decode), actions[1..], decode)
  }

  // ---------------------------------------------------------------------
  // The history invariant

  lemma InitialInv()
    ensures Inv(Initial)
  {
  }

  /** Every action keeps the cursor in range and, once no commit is
      pending, the live blocks equal the snapshot under the cursor. */
  lemma StepPreservesInv(s: GameState, a: Action, decode: string -> Option<SavedBuild>)
    requires Inv(s)
    ensures Inv(Step(s, a, decode))
  {
    match a
    case UndoAction =>
      if s.historyIndex > 0 {
        assert Undo(s).blocks == s.history[s.historyIndex - 1];
      }
    case RedoAction =>
    case LoadBuildAction(id) =>
    case ClearBlocksAction =>
    case HistoryTimerFires =>
    case _ =>
  }

  /** Any run of actions from a state satisfying the invariant keeps it; in
      particular every state reachable from `initialState`. */
  lemma {:induction false} RunPreservesInv(s: GameState, actions: seq<Action>, decode: string -> Option<SavedBuild>)
    requires Inv(s)
    ensures Inv(Run(s, actions, decode))
    decreases |actions|
  {
    if |actions| > 0 {
      StepPreservesInv(s, actions[0], decode);
      RunPreservesInv(Step(s, actions[0], decode), actions[1..], decode);
    }
  }

  lemma ReachableInv(actions: seq<Action>, decode: string -> Option<SavedBuild>)
    ensures Inv(Run(Initial, actions, decode))
  {
    RunPreservesInv(Initial, actions, decode);
  }

  // ---------------------------------------------------------------------
  // The debounce

  /** The block edits that (re)start the history timer. */
  datatype Edit = AddEdit(payload: BlockPayload, id: Id) | RemoveEdit(id: Id)

  function ApplyEdit(s: GameState, e: Edit): GameState {
    match e
    case AddEdit(p, id) => AddBlock(s, p, id)
    case RemoveEdit(id) => RemoveBlock(s, id)
  }

  /** A burst of edits made before the timer fires. */
  function ApplyEdits(s: GameState, edits: seq<Edit>): (r: GameState)
    ensures r.history == s.history && r.historyIndex == s.historyIndex
    ensures r.savedBuilds == s.savedBuilds
    ensures |edits| > 0 ==> r.commitPending
    ensures |edits| == 0 ==> r == s
    decreases |edits|
  {
    if |edits| == 0 then s else ApplyEdits(ApplyEdit(s, edits[0]), edits[1..])
  }

  /** Each edit cancels the pending commit and schedules a new one, so a
      burst of edits followed by the timer firing records exactly one
      snapshot: the blocks after the last edit. A second firing adds
      nothing. */
  lemma DebounceCoalesces(s: GameState, edits: seq<Edit>)
    requires Valid(s) && |edits| > 0
    ensures var burst := ApplyEdits(s, edits);
            var t := FireHistoryTimer(burst);
            && t.history == s.history[..s.historyIndex + 1] + [burst.blocks]
            && t.historyIndex == s.historyIndex + 1
            && FireHistoryTimer(t) == t
  {
  }

  /** Edits spaced further apart than the debounce delay: the timer fires
      after each one. */
  function ApplyEditsSettling(s: GameState, edits: seq<Edit>): GameState
    decreases |edits|
  {
    if |edits| == 0 then s
    else ApplyEditsSettling(FireHistoryTimer(ApplyEdit(s, edits[0])), edits[1..])
  }

  /** From the tip of the log, N spaced edits add N history entries and
      leave the cursor on the newest one. */
  lemma {:induction false} SpacedEditsCommitEach(s: GameState, edits: seq<Edit>)
    requires Valid(s) && s.historyIndex == |s.history| - 1
    ensures var t := ApplyEditsSettling(s, edits);
            && |t.history| == |s.history| + |edits|
            && t.historyIndex == |t.history| - 1
            && t.history[..|s.history|] == s.history
    decreases |edits|
  {
    if |edits| > 0 {
      var u := ApplyEdit(s, edits[0]);
      var f := FireHistoryTimer(u);
      assert s.history[..s.historyIndex + 1] == s.history;
      SpacedEditsCommitEach(f, edits[1..]);
      var t := ApplyEditsSettling(f, edits[1..]);
      assert t.history[..|s.history|] == t.history[..|f.history|][..|s.history|];
    }
  }

  // ---------------------------------------------------------------------
  // Adding and removing

  /** Removing the block just added under a fresh id gives back the
      blocks from before. */
  lemma AddThenRemove(s: GameState, p: BlockPayload, id: Id)
    requires FreshId(id, s.blocks)
    ensures RemoveBlock(AddBlock(s, p, id), id).blocks == s.blocks
  {
    var nb := WithId(p, id);
    FilterAppend(s.blocks, [nb], IdIsNot(id));
  }

  /** Removal keeps the surviving blocks in their original order: removing
      from a concatenation is removing from each part. */
  lemma RemoveKeepsOrder(s: GameState, front: seq<Block>, back: seq<Block>, id: Id)
    requires s.blocks == front + back
    ensures RemoveBlock(s, id).blocks ==
            RemoveBlock(s.(blocks := front), id).blocks + RemoveBlock(s.(blocks := back), id).blocks
  {
    FilterAppend(front, back, IdIsNot(id));
  }

  /** Removal keeps every cell singly occupied. */
  lemma RemoveKeepsNoOverlap(s: GameState, id: Id)
    requires NoOverlap(s.blocks)
    ensures NoOverlap(RemoveBlock(s, id).blocks)
  {
    FilterKeepsNoOverlap(s.blocks, IdIsNot(id));
  }

  // ---------------------------------------------------------------------
  // Undo and redo

  /** An undo that moved the cursor, followed by a redo, returns the cursor
      to where it was and shows the snapshot under it. */
  lemma UndoThenRedo(s: GameState)
    requires Valid(s) && s.historyIndex > 0
    ensures var r := Redo(Undo(s));
            && r.historyIndex == s.historyIndex
            && r.history == s.history
            && r.blocks == s.history[s.historyIndex]
  {
  }

  /** In a settled state (no commit pending) undo then redo is the
      identity, and so is redo then undo. */
  lemma UndoRedoSettled(s: GameState)
    requires Inv(s) && !s.commitPending
    ensures s.historyIndex > 0 ==> Redo(Undo(s)) == s
    ensures s.historyIndex + 1 < |s.history| ==> Undo(Redo(s)) == s
  {
  }

  /** With an edit still waiting for its commit, undo then redo does not
      restore it: the redone state shows the last committed snapshot. */
  lemma UndoRedoDropsPendingEdit(s: GameState, p: BlockPayload, id: Id)
    requires Inv(s) && !s.commitPending && s.historyIndex > 0
    ensures var a := AddBlock(s, p, id);
            Redo(Undo(a)).blocks == s.blocks != a.blocks
  {
    var a := AddBlock(s, p, id);
    assert |a.blocks| == |s.blocks| + 1;
  }

  /** Clearing while an edit's commit is pending: the late commit appends a
      second empty snapshot, so the first undo afterwards still shows an
      empty world. */
  lemma ClearWhilePending(s: GameState)
    requires Valid(s) && s.commitPending
    ensures var t := FireHistoryTimer(ClearBlocks(s));
            && t.history == s.history[..s.historyIndex + 1] + [[], []]
            && t.historyIndex == s.historyIndex + 2
            && Undo(t).blocks == []
            && Undo(t).historyIndex == s.historyIndex + 1
  {
    var c := ClearBlocks(s);
    assert c.history[..c.historyIndex + 1] == c.history;
  }

  /** Loading while an edit's commit is pending: the late commit pushes the
      loaded blocks a second time, so the loaded build is one undo step
      deep instead of the only entry. */
  lemma LoadWhilePending(s: GameState, id: Id)
    requires s.commitPending && FindBuild(s.savedBuilds, id).Some?
    ensures var b := FindBuild(s.savedBuilds, id).value;
            var t := FireHistoryTimer(LoadBuild(s, id));
            t.history == [b.blocks, b.blocks] && t.historyIndex == 1
  {
  }

  // ---------------------------------------------------------------------
  // Saved builds

  /** Saving under a fresh id, clearing, then loading that id restores the
      blocks present at save time and restarts the history from them. */
  lemma SaveClearLoad(s: GameState, name: string, id: Id)
    requires FindBuild(s.savedBuilds, id).None?
    ensures var t := LoadBuild(ClearBlocks(SaveBuild(s, name, id)), id);
            && t.blocks == s.blocks
            && t.history == [s.blocks]
            && t.historyIndex == 0
  {
    var saved := SaveBuild(s, name, id);
    FindAppend(s.savedBuilds, [SavedBuild(id, name, s.blocks)], BuildIdIs(id));
    assert FindBuild(ClearBlocks(saved).savedBuilds, id) == Some(SavedBuild(id, name, s.blocks));
  }

  /** Deleting a build leaves the other builds in order. */
  lemma DeleteKeepsOrder(s: GameState, front: seq<SavedBuild>, back: seq<SavedBuild>, id: Id)
    requires s.savedBuilds == front + back
    ensures DeleteBuild(s, id).savedBuilds ==
            DeleteBuild(s.(savedBuilds := front), id).savedBuilds +
            DeleteBuild(s.(savedBuilds := back), id).savedBuilds
  {
    FilterAppend(front, back, BuildIdIsNot(id));
  }

  /** The decoder inverts the encoder wherever the encoder succeeds. */
  ghost predicate RoundTrips(encode: SavedBuild -> Option<string>, decode: string -> Option<SavedBuild>) {
    forall b :: encode(b).Some? ==> decode(encode(b).value) == Some(b)
  }

  /** Exporting an encodable build and importing the text appends a copy
      with the same name and blocks under the new id, which differs from
      the original's. */
  lemma ExportThenImport(s: GameState, id: Id, encode: SavedBuild -> Option<string>,
                         decode: string -> Option<SavedBuild>, newId: Id)
    requires RoundTrips(encode, decode)
    requires FindBuild(s.savedBuilds, id).Some?
    requires encode(FindBuild(s.savedBuilds, id).value).Some?
    requires FindBuild(s.savedBuilds, newId).None?
    ensures var orig := FindBuild(s.savedBuilds, id).value;
            var e := ExportBuild(s, id, encode);
            && e.Success?
            && var t := ImportBuild(s, e.value, decode, newId);
            && |t.savedBuilds| == |s.savedBuilds| + 1
            && t.savedBuilds[|s.savedBuilds|].name == orig.name
            && t.savedBuilds[|s.savedBuilds|].blocks == orig.blocks
            && t.savedBuilds[|s.savedBuilds|].id == newId != orig.id
  {
    var orig := FindBuild(s.savedBuilds, id).value;
    assert decode(encode(orig).value) == Some(orig);
  }

  /** Exporting an unknown id yields "", and importing text the decoder
      rejects leaves the saved builds alone. */
  lemma ExportUnknownThenImport(s: GameState, id: Id, encode: SavedBuild -> Option<string>,
                                decode: string -> Option<SavedBuild>, newId: Id)
    requires FindBuild(s.savedBuilds, id).None?
    requires decode("").None?
    ensures ExportBuild(s, id, encode) == Success("")
    ensures ImportBuild(s, ExportBuild(s, id, encode).value, decode, newId) == s
  {
  }

  // ---------------------------------------------------------------------
  // Selection, hover, theme

  lemma ToggleThemeTwice(s: GameState)
    ensures ToggleTheme(ToggleTheme(s)) == s
  {
  }

  lemma HoverSettersIdempotent(s: GameState, id: Option<Id>, face: Option<int>)
    ensures SetHoveredBlock(SetHoveredBlock(s, id), id) == SetHoveredBlock(s, id)
    ensures SetHoveredFace(SetHoveredFace(s, face), face) == SetHoveredFace(s, face)
  {
  }
}
